=== FILE: README.md ===
# rust_diagrams interaction core in Dafny

This project models the interactive-manipulation core of the rust_diagrams 2D
editor. In that editor the user creates, selects, moves and resizes shapes on
a canvas with the mouse. The model covers:

- the geometry primitives: points, axis-aligned rects with their normalising
  hit test, bounding boxes, lines and their intersection, the stroke hit test
  of a line segment, the hit regions of the polygon primitives, and the
  pixel/device coordinate conversion;
- the selection box: its eight drag handles, the handle under the pointer,
  the padded "fuzzy" hover region, and the resize algorithm. The resize
  swaps the dragged edge with the fixed one when the pointer crosses it,
  and corner drags keep the aspect ratio;
- the draw list: ids, the draw order, picking the topmost shape and raising
  it, and box selection;
- the hover/drag state machine of `AppState`: press, motion and release, the
  selection, the shape palette and shape creation;
- the per-gesture move handlers of the event-handler redesign under
  `src/testing`.

Every `f32` is a `real`. Wherever the program compares a square root with a
radius, the model compares squares. The matrix transforms that place a
polygon are parameters of the model (`Shapes.Env`, `HandleEvents.BoxOps`):

- `toModel`: pixel to model space;
- `polyVerts`: the placed vertices;
- `setCenter`: `RotateRect::set_center`;
- the rotation angle, `set_radians` and the rotation-aware `drag_side`.

`HashMap` lookups that return the first match in iteration order
(`ShapeBar::click_shape`, `fuzzy_hover_rect`) are modelled as a choice of
some match, because the program does not fix that order. This makes the
state machine ghost.

The files come from different revisions. `src/interface.rs` places a polygon
with a `RotateRect { offset, size, rot }`, which the shown `src/primitives.rs`
does not define (it still has `offset`, `width`, `height`, `rot` fields). The
model follows `src/interface.rs` and uses a `RotateRect` record.

Files:

- `points.dfy`: `Options`, `Points`
- `lines.dfy`: `Lines`
- `rects.dfy`: `Rects`
- `prims.dfy`: `Prims`
- `shapes.dfy`: `Shapes`
- `select_box.dfy`: `SelectBox`
- `draw_list.dfy`: `DrawLists`
- `app.dfy`: `App`
- `handle_events.dfy`: `HandleEvents`

Facts about the code that a reader might expect otherwise:

- **Model space.** A primitive's hit region lies in [-0.5, 0.5]². The
  triangle has its apex at (0, 0.5) and its base on y = -0.5.
- **Line stroke.** A line is hit within the full `line_width` of its
  supporting line, not half of it. The distance is measured to the infinite
  line, and only a box around the endpoints clips it. On y that box always
  lowers `p1.y` and raises `p2.y` by half the stroke, whichever is larger:
  it is widened when `p1.y <= p2.y` and narrowed when `p1.y > p2.y`, so a
  line drawn with `p1` below `p2` on screen misses its own ends; see
  "## Findings". The canvas and palette hit tests
  (`Shapes.Hit`) keep this behaviour of the program.
- **Repeated click.** A second click on two overlapping shapes picks the
  same (topmost) shape again, not the one below it. See
  `DrawLists.ClickTwiceSame` and `DrawLists.ClickPicksLastAdded`.
- **Escape.** No key cancels a gesture in the mouse handler; only the
  left-button release does.

## Model

| member | source | states |
|---|---|---|
| Points.SubAddInverse | src/primitives.rs:198-224 | moving a point by a difference and back restores it; adding `a - b` to `b` gives `a` |
| Points.PixelsToCoords | src/primitives.rs:711-713 | for a viewport with nonzero sides, converting pixels to device coordinates is undone by `coords_to_pixels` |
| Points.CoordsRoundTrip | src/primitives.rs:711-718 | `pixels_to_coords` and `coords_to_pixels` are mutually inverse for a viewport with nonzero sides |
| Points.CoordsCorners | src/primitives.rs:711-713 | the top-left pixel maps to (-1, 1) and the viewport size maps to (1, -1) |
| Points.DistSqSymmetric | src/primitives.rs:192-194 | the distance between two points does not depend on their order |
| Lines.FromPts | src/primitives.rs:259-265 | both points satisfy the line's equation, and two distinct points give a proper line (a or b nonzero) |
| Lines.FromPtSlope | src/primitives.rs:266-268 | the result keeps the direction coefficients and passes through the point |
| Lines.Intersect | src/primitives.rs:253-278 | None exactly when the determinant's magnitude is below 1e-7; a returned point lies on both lines |
| Lines.Cramer | src/primitives.rs:269-277 | Cramer's rule yields a point on both lines whenever the determinant is nonzero |
| Lines.NoSelfIntersection | src/primitives.rs:269-273 | a line is never reported as crossing itself at a single point |
| Lines.OnLineIsNear | src/primitives.rs:279-283 | a point on a proper line is within any nonnegative distance of it |
| Lines.SameNumeratorSameDistance | src/primitives.rs:279-283 | the distance test depends only on the direction coefficients and the value of the line equation at the point |
| Rects.Width | src/primitives.rs:424-426 | the width is nonnegative and equals the larger minus the smaller x coordinate |
| Rects.Height | src/primitives.rs:427-429 | the height is nonnegative and equals the larger minus the smaller y coordinate |
| Rects.Center | src/primitives.rs:421-423 | the centre is the midpoint of the corners (twice it is their sum) and lies inside the rect whatever the corner order |
| Rects.Verts | src/primitives.rs:430-435 | four corners clockwise from `c1`: (max x, min y), then `c2`, then (min x, max y) as the unnormalised accessors read them |
| Rects.VertsOnRect | src/primitives.rs:430-435 | every corner passes the rect's own hit test, and consecutive corners share a side |
| Rects.VertsSpanRect | src/primitives.rs:406-435 | the bounding box of a normalised rect's corners is the rect itself |
| Rects.InBoundsIsMinMaxBox | src/primitives.rs:450-458 | `in_bounds` is the closed box between the componentwise minimum and maximum of the corners |
| Rects.InBoundsNormalized | src/primitives.rs:450-458 | for `c1 <= c2`, `in_bounds` is plain containment |
| Rects.InBoundsCornerOrderIrrelevant | src/primitives.rs:450-458 | swapping the corners, or their coordinates on one axis, does not change `in_bounds` |
| Rects.DragTranslatesInBounds | src/interface.rs:31-36 | a dragged rect is hit at `p` exactly when the original is hit at `p - off`; width and height are kept |
| Rects.Scan | src/primitives.rs:408-414 | the bounding-box loop returns a normalised rect containing every point, with each bound attained by some point or the start |
| Rects.BoundingBox | src/primitives.rs:406-416 | no points give the zero rect; otherwise a normalised rect containing every point, each bound attained by some point |
| Rects.New | src/primitives.rs:403-405 | the rect from the componentwise minimum to the componentwise maximum of the two points, hence normalised |
| Rects.NewSinglePoint | src/primitives.rs:403-405 | two equal points give the degenerate rect at that point |
| Prims.Verts | src/primitives.rs:82-114 | every primitive's flat vertex list holds `2 * size()` coordinates |
| Prims.ModelVertsInside | src/primitives.rs:82-151 | every triangle and rect model vertex passes its own primitive's hit test |
| Prims.TriangleWithinRect | src/primitives.rs:136-151 | the triangle's region lies inside the square's |
| Prims.CircleWithinRect | src/primitives.rs:136-151 | the disc x²+y² <= 0.25 lies inside the square; circle and ring share it |
| Prims.Fill | src/primitives.rs:655-668 | sets the fill flag; an outlined circle becomes a ring and a filled ring a circle; other primitives are kept |
| Prims.FillIdempotent | src/primitives.rs:655-668 | filling twice with the same flag changes nothing more, and the last call wins |
| Prims.FillKeepsHitRegion | src/primitives.rs:136-151 | re-filling never changes where a polygon is hit |
| Shapes.AccessorsSelectExtremes | src/primitives.rs:293-305 | `min_x`/`max_x`/`min_y`/`max_y` read the smaller and larger coordinate; on a tie both designate `p2` |
| Shapes.InBoundsAsWrittenShape | src/primitives.rs:469-488 | x is padded by half the width only for a vertical segment; on y, `p1.y` is lowered and `p2.y` raised by half the width, which widens the box when `p1.y <= p2.y` and narrows it otherwise; outside that box is a miss, inside it a hit iff within the full width; a degenerate segment is never hit |
| Shapes.AsWrittenHitsBeyondEndpoint | src/primitives.rs:477-480 | the as-written test accepts (1,-1) for the segment (0,0)-(10,10) of width 4, below its lower end; the corrected test rejects it |
| Shapes.InBoundsWithinExtent | src/primitives.rs:469-488 | the corrected test never hits a non-horizontal segment outside its y extent, nor a non-vertical one outside its x extent |
| Shapes.AsWrittenMissesOwnEnd | src/primitives.rs:477-480 | for the segment (0,10)-(10,0) of width 4 the as-written box narrows to y in [2, 8], so the test misses the endpoint (0,10) and the segment's point (1,9); the corrected test hits both |
| Shapes.InBoundsCoversSegment | src/primitives.rs:469-488 | the corrected test hits every point of a proper segment with a nonnegative stroke, whichever way it is drawn |
| Shapes.Drag | src/interface.rs:40-50 | a line moves both endpoints by the offset and keeps its width; a polygon moves only its placement offset |
| Shapes.LineShapeHitBeyondEndpoint | src/primitives.rs:578-585 | a canvas line is hit by the program's as-written test: the diagonal (0,0)-(10,10) of width 4 is hit at (1,-1) |
| Shapes.DragTranslatesLineHit | src/interface.rs:40-45 | under the program's line test and under the corrected one, a dragged line is hit at `p` exactly when the original is hit at `p - off` |
| Shapes.DragTranslatesLineShapeHit | src/interface.rs:40-45 | a dragged line shape is clicked at `p` exactly when the original is clicked at `p - off` |
| Shapes.SetRect | src/interface.rs:64-71 | a polygon takes the new placement and keeps primitive and fill; a line is unchanged |
| Shapes.DragSidePolygonSpansRect | src/interface.rs:72-77 | after `drag_side` a polygon's placement spans a normalised rect exactly, keeping rotation, primitive and fill |
| Shapes.DragSideLineSpansRect | src/interface.rs:72-87 | after `drag_side` a line's endpoints span the normalised rect on both axes, when the new minimum does not pass the old maximum |
| SelectBox.FromIndex | src/interface.rs:370-379 | a handle exists exactly for discriminants below 8, and its discriminant is the index |
| SelectBox.IndexRoundTrip | src/interface.rs:370-379 | handle to discriminant and back is the identity |
| SelectBox.HoverCursor | src/interface.rs:381-396 | each resize cursor is shown for exactly its pair of opposite handles |
| SelectBox.OppositeInvolution | src/interface.rs:381-396 | the opposite of the opposite handle is the handle itself, and opposite handles share a cursor |
| SelectBox.SwapVertex | src/interface.rs:405-428 | afterwards the two bounds are {new value, old fixed bound}; the ordering direction of the pair is kept; the handle is `vertex1` or `vertex2` |
| SelectBox.SwapVertexCrossing | src/interface.rs:405-428 | the second handle is returned exactly when the new value crosses the fixed bound; without a crossing the dragged bound takes the new value |
| SelectBox.Rise | src/interface.rs:465-486 | the corner's vertical move times the width equals its horizontal move times the height |
| SelectBox.DragSide | src/interface.rs:450-491 | the returned handle is the dragged one or its opposite, with the same cursor |
| SelectBox.CornerHandleFollowsY | src/interface.rs:465-488 | for a corner, the drag continues with the opposite corner exactly when the corner's new y crosses the fixed y bound; the x-axis swap does not count |
| SelectBox.CornerXSwapIgnored | src/interface.rs:468-469 | dragging the top-left corner of (0,0)-(10,0) to (20,0) gives (10,0)-(20,0) but keeps the TopLeft handle |
| SelectBox.GuardedDragSide | src/interface.rs:450-491 | a corner drag that is defined for a box of zero width, and equal to `drag_side` wherever that divides by a nonzero width |
| SelectBox.GuardedCornerFollowsPointer | src/interface.rs:465-488 | on a box of zero width, the guarded corner drag spans the box between the pointer and the fixed corner |
| SelectBox.DragSideMovesEdge | src/interface.rs:453-464 | a side handle moves its own edge (or swaps it with the opposite one) and leaves the other axis alone |
| SelectBox.DragSideKeepsNormalized | src/interface.rs:450-491 | a normalised box stays normalised under Right and BottomCenter, and under Left, TopCenter and the corners when strictly non-degenerate |
| SelectBox.DragLeftOfFlatBoxInverts | src/interface.rs:459-461 | dragging Left on a box of zero width past its right edge leaves it inverted and continues with Right |
| SelectBox.CornerExtents | src/interface.rs:465-486 | a corner drag's new width and height are the distances from the fixed corner to the dragged point |
| SelectBox.CornerDragKeepsAspect | src/interface.rs:465-486 | a corner drag of a box with positive width keeps the height-to-width ratio |
| SelectBox.RightHandleCrossesLeftEdge | src/interface.rs:456-458 | dragging Right across the left edge swaps the edges and continues with Left |
| SelectBox.DragPoints | src/interface.rs:500-508 | eight points; the one at a handle's discriminant is that handle's position (corners, then edge midpoints) |
| SelectBox.FindNear | src/interface.rs:494-498 | the first index from the start whose point is within distance 10, or None when there is none |
| SelectBox.GetDragVertex | src/interface.rs:494-498 | the lowest-discriminant handle within distance 10 of the pointer, or None when no handle is |
| SelectBox.FuzzyCoversBoxAndHandles | src/interface.rs:521-527 | for a normalised box, the box and every handle found are inside the region padded by 10 |
| DrawLists.Empty | src/interface.rs:95-97 | a new list is valid and empty |
| DrawLists.Add | src/interface.rs:98-102 | the shape is stored under the old next id and appended to the draw order; no other key appears or changes; the next id grows by one |
| DrawLists.AddPreservesValid | src/interface.rs:98-102 | adding keeps the list valid, adds exactly one key and never reuses an id |
| DrawLists.TopmostHit | src/interface.rs:110-112 | the highest draw position below `n` whose shape exists and is hit, or None when there is none |
| DrawLists.ClickShape | src/interface.rs:109-122 | Some exactly when some drawn shape is hit; the topmost one is raised to the end; the order stays a permutation; None leaves the list unchanged |
| DrawLists.RaisePermutes | src/interface.rs:113-116 | raising a position keeps the draw order's multiset |
| DrawLists.RaiseKeepsDistinct | src/interface.rs:113-116 | raising a position keeps the ids distinct |
| DrawLists.ClickShapePreservesValid | src/interface.rs:109-122 | clicking keeps the list valid |
| DrawLists.ClickWhenTopHit | src/interface.rs:109-122 | when the top shape is hit, a click picks it and leaves the order as it is |
| DrawLists.ClickTwiceSame | src/interface.rs:109-122 | a second click at the same point picks the same shape and changes nothing |
| DrawLists.ClickPicksLastAdded | src/interface.rs:98-122 | of two overlapping shapes the one added last is picked, by every click at that point |
| DrawLists.BoxSelection | src/interface.rs:121-123 | only listed shapes are selected, each with its stored value |
| DrawLists.BoxSelectionMembers | src/interface.rs:61-63 | a shape is box-selected exactly when one of its vertices lies in the box |
| DrawLists.BoxSelectionMonotone | src/interface.rs:121-123 | a box whose region contains another's selects at least as much |
| DrawLists.TranslateShapes | src/interface.rs:234-237 | exactly the listed ids are dragged; other shapes and the draw order are untouched |
| DrawLists.Update | src/interface.rs:106-108 | only the given id's shape is replaced, and only if it exists; ids and draw order are kept |
| DrawLists.UpdatePreservesValid | src/interface.rs:252-254 | replacing a shape in place keeps the list valid |
| DrawLists.DragRoundTrip | src/interface.rs:40-50 | dragging by `d` and then by `-d` restores a shape |
| DrawLists.DragCompose | src/interface.rs:40-50 | dragging by `a` and then by `b` is dragging by `a + b` |
| DrawLists.TranslateRoundTrip | src/interface.rs:234-237 | moving the selection by `d` and back restores the list, which stays valid |
| App.Init | src/interface.rs:170-181 | the editor starts with an empty selection, no gesture and nothing hovered |
| App.InitInv | src/interface.rs:170-181 | the initial state keeps the invariant |
| App.BarClick | src/interface.rs:593-595 | a palette shape hit at the point, or None exactly when none is hit |
| App.FuzzyHoverRect | src/interface.rs:185-187 | a selection box whose padded region holds the point, or None exactly when none does |
| App.GetShape | src/interface.rs:572-592 | a polygon entry gives a polygon with the requested fill; a line entry is copied unchanged |
| App.GetShapePlacement | src/interface.rs:572-583 | a created polygon spans a normalised non-degenerate rect exactly, unrotated; from a single point it gets size 30 centred there |
| App.GetShapeIsFilledPrim | src/interface.rs:584-588 | the created primitive is the palette's as `fill` leaves it, and it is hit where the palette's primitive is |
| App.SelectBoxOf | src/interface.rs:182-184 | the select box is normalised and holds every vertex; a line's is the rect between its endpoints |
| App.HandleHoverClick | src/interface.rs:188-207 | a press inside the hovered box starts a move with Hand; one in its padding changes nothing (Arrow); a hovered handle starts a resize with its cursor; a palette shape in hand starts a creation at the point, clears the hover item and shows Crosshair; the canvas, the selection and the palette never change |
| App.VerticalLineCornerResizeUndefined | src/interface.rs:182-184 | a selected vertical line's box has zero width, so a corner resize of it is outside `ResizeDefined` |
| App.HandleSelect | src/interface.rs:208-227 | without ctrl every box left selected is the hovered, clicked one, so at most one remains; with ctrl nothing is deselected |
| App.MoveSelection | src/interface.rs:234-237 | every selected box and shape moves by the same offset; the selection keeps its ids |
| App.HandleDrag | src/interface.rs:229-262 | motion during a gesture keeps the palette and the hover item and never ends the gesture |
| App.HandleHover | src/interface.rs:263-283 | hovering changes only the hover item |
| App.Release | src/interface.rs:300-318 | a left release always ends the gesture and keeps the hover item |
| App.HandleMouseEvent | src/interface.rs:284-333 | a left release ends every gesture and sets no cursor; press and motion set a cursor exactly for the left button or motion; other events change nothing |
| App.InvCanHandle | src/interface.rs:191-193 | in a state keeping the invariant every press and release is handled without a missing-key panic |
| App.EventKeepsInv | src/interface.rs:284-333 | every handled event keeps the invariant |
| App.ReleaseAddsOneShape | src/interface.rs:310-314 | releasing a creation adds exactly one shape, filled and placed in the dragged box, on top; the selection is kept |
| App.ReleaseCollapsesUnmovedClick | src/interface.rs:303-308 | releasing a move keeps the clicked box; after a plain press that never moved the selection collapses to it, otherwise it is unchanged |
| App.MotionMovesSelection | src/interface.rs:231-239 | motion in a move drags every selected shape and box by the pointer displacement, clears `clear_select` and records the pointer |
| App.MotionsCompose | src/interface.rs:231-239 | two motions in a move leave the state that a single motion to the second point leaves |
| App.PressOnEmptyCanvas | src/interface.rs:208-227 | a plain press on empty canvas clears the selection and starts a selection box; with ctrl nothing changes |
| App.PressSelectsShape | src/interface.rs:218-224 | a press on a shape raises the topmost one hit, selects it with its bounding box, hovers it and starts a move |
| App.ClickSelectsShape | src/interface.rs:208-318 | a click without motion selects that shape alone, or adds it with ctrl |
| App.PressOnHandleResizes | src/interface.rs:196-274 | hovering a handle of a normalised box shows its cursor, and pressing starts resizing with that handle |
| App.MotionResizes | src/interface.rs:248-255 | motion in a resize moves the box's handle, continues with the handle returned, fits the shape, and shows the pre-move handle's cursor |
| App.MotionSelectsInBox | src/interface.rs:240-246 | motion in a selection box selects exactly the shapes with a vertex in the box, each with its bounding box |
| Shapes.PolygonHitIsPrimitiveHit | src/primitives.rs:460-467 | a polygon is hit exactly where its primitive is hit at the pixel's model-space image, so a polygon carrying the line primitive (src/primitives.rs:147-149) is never hit |
| App.MotionHovers | src/interface.rs:263-283 | with no gesture, motion moves a palette shape in hand to centre on the pointer with Crosshair; otherwise it hovers the handle under the pointer with its cursor, or the box with Hand, when some selection box's padded region holds the pointer, and nothing with Arrow exactly when none does; only the hover item changes |
| App.PressOnPalette | src/interface.rs:208-216 | with nothing hovered, a press on a palette shape picks up a hit palette entry as a default-size outlined shape at the pointer with Crosshair, clears the selection unless ctrl is held, and keeps the canvas and gesture |
| App.CreateFollowsPointer | src/interface.rs:256-259 | motion while creating a shape records the pointer as the far corner, with Crosshair, and changes nothing else |
| App.CreateSpansPressToRelease | src/interface.rs:310-317 | press (src/interface.rs:200-204), motion and release with a palette shape in hand add exactly one filled shape spanning the press and release points and end the gesture |
| HandleEvents.SyncShape | src/testing/handle_events.rs:30-36 | only the shape with the box's id takes the box's placement |
| HandleEvents.ShapeBarMove | src/testing/handle_events.rs:20-42 | the gesture continues; without a box for the id nothing changes and the cursor is Hand; a resize shows the pre-move handle's cursor |
| HandleEvents.RotateTurnsBox | src/testing/handle_events.rs:26-32 | a rotation stores `180*rot/PI + angle - last_angle`, remembers the angle, keeps the shape with its box and changes nothing else |
| HandleEvents.ResizeMovesHandle | src/testing/handle_events.rs:33-37 | a resize continues with the handle returned, shows the pre-move handle's cursor, and keeps the shape with its box |
| HandleEvents.MoveSelection | src/testing/handle_events.rs:50-53 | every selected box and shape moves by the same offset |
| HandleEvents.CanvasMove | src/testing/handle_events.rs:46-59 | the move stops being a click, records the pointer, shows Hand and keeps all ids |
| HandleEvents.CanvasMoveKeepsSynced | src/testing/handle_events.rs:48-54 | moving the selection keeps every shape in step with its box |
| HandleEvents.CanvasMovesCompose | src/testing/handle_events.rs:48-54 | two moves leave the canvas that one move to the second point leaves |
| HandleEvents.CreateMove | src/testing/handle_events.rs:63-67 | the start point is kept, the pointer becomes the last point, the canvas is untouched, and the cursor is Hand (where src/interface.rs:258 sets Crosshair for the same update; see `App.CreateFollowsPointer`) |
| HandleEvents.CreateMovesKeepLast | src/testing/handle_events.rs:62-68 | any nonempty run of create moves keeps the start point, holds only the last pointer position, leaves the canvas unchanged, and ends with Hand |

## Left out

- OpenGL and SDL plumbing: shaders, buffers, `draw`/`render`, `CursorMap`
  and colours. The model returns the cursor a handler chooses and does not
  set it.
- The glm transforms of a placed polygon: `PolyTransform`, polygon
  `Shape::verts`, `DrawPolygon::in_bounds` and `RotateRect::set_center`.
  They are the functions in `Shapes.Env`. `get_rotate_angle`, `set_radians`
  and the three-argument `drag_side` of the testing handlers are the
  functions in `HandleEvents.BoxOps`. `RotateRect::drag` is not shown; it
  is taken to move the offset, as `Shape::drag` does for a polygon.
- Prims.Verts: the ring's cosine and sine values are a parameter; only the
  list lengths are stated.
- `ShapeBar::new`: the palette's layout in the viewport is not modelled.
  `App.ShapeBar` holds only the palette shapes; its `selected` and
  `draw_rect` fields are never read by the event logic.
- `impl Mul for Point` (src/primitives.rs:226): the component-wise product
  is not used by any modelled operation.
- `Rect::center` is modelled (`Rects.Center`), but its only caller,
  `ShapeBar::new`, is not.
- `drag_corner_swap_vertex` (src/interface.rs:429-449) is dead code.
- The `u32` ids and `next_id`: they are unbounded `nat`s, so the id
  wrap-around after 2^32 additions is not modelled.
- `DrawList::draw`, which panics on a draw-order id missing from the map.
  `DrawLists.Valid` states the invariant that rules this out.
- SDL event and modifier decoding: `App.MouseEvent` carries the button,
  integer position and left-ctrl flag.
- SelectBox.DragSide: requires a nonzero width for a corner handle. The
  program divides by the width, and `f32` division by zero yields infinity
  or NaN, which reals cannot represent. This case is easy to reach: see
  "## Findings".
- App.HandleMouseEvent: requires, for motion, that a corner resize's box has
  nonzero width. This is `App.ResizeDefined`, for the same reason. The
  invariant cannot provide it. A selected vertical line has a box of zero
  width from the moment it is selected (`App.VerticalLineCornerResizeUndefined`),
  and a corner drag can also flatten a box. The state machine keeps the
  program's `drag_side` under this requires, and does not use
  `SelectBox.GuardedDragSide`. The program's result for these inputs is
  infinite or NaN, and it is not modelled.
- Points.PixelsToCoords: requires a viewport with nonzero sides, for the
  same reason.
- Lines.DistAtMost: a zero-length segment divides by `sqrt(0)`, so the
  comparison with NaN or infinity fails. It is modelled as a miss.
- Text editing, the display tree, buttons, the colour picker, keyboard
  handling and the abandoned event-tree files are outside this core.

## Findings

| source | as written | input that shows it | evidently intended | confidence | as-written member | corrected member |
|---|---|---|---|---|---|---|
| src/primitives.rs:477 | `if c2.y == c2.y` compares a value with itself, so for every line `p1.y` is lowered and `p2.y` raised by half the stroke; when `p1.y <= p2.y` the box is widened beyond the segment's ends | segment (0,0)-(10,10), width 4, point (1,-1): inside the widened box and within the stroke distance, though below the segment's lower end | `if c1.y == c2.y`, mirroring the x test on line 473: pad y only for a horizontal segment | not executed | Shapes.AsWrittenHitsBeyondEndpoint | Shapes.InBoundsWithinExtent |
| src/primitives.rs:478-479 | the same always-taken branch, when `p1.y > p2.y`, narrows the box by half the stroke at each end, so a line drawn with `p1` below `p2` on screen loses its own ends | segment (0,10)-(10,0), width 4: the box becomes y in [2, 8], and the endpoint (0,10) and the segment's point (1,9) are both missed | pad y only for a horizontal segment, which keeps every point of the segment inside the box | not executed | Shapes.AsWrittenMissesOwnEnd | Shapes.InBoundsCoversSegment |
| src/interface.rs:466 | a corner drag scales by `height / width`, with no guard for a box of zero width | select the vertical line (0,0)-(0,10), whose box (0,0)-(0,10) has width 0, then drag its TopLeft handle to (5,3): `h = 5 * 10 / 0` is infinite, and the box and the line take an infinite y (lines 472, 478 and 484 divide the same way) | a guarded corner drag; with no aspect ratio to keep, the corner presumably follows the pointer on both axes | not executed | App.VerticalLineCornerResizeUndefined | SelectBox.GuardedCornerFollowsPointer |

=== FILE: app.dfy ===
/**
  `AppState`: the editor's pointer-driven state machine. A press either acts
  on what the pointer hovers over (a selection box, one of its handles, a
  palette shape picked for creation) or selects; motion either updates the
  hover item or continues the gesture in progress; a release ends it.

  The functions that pick from a `HashMap` (`ShapeBar::click_shape`,
  `fuzzy_hover_rect`) find the first match in the map's iteration order,
  which the program does not fix; they are modelled as a choice of some
  match, so the machine is ghost.
 */
module App {
  import opened Options
  import opened Points
  import opened Rects
  import Prims
  import Shapes
  import SB = SelectBox
  import DrawLists

  /** The gesture in progress. */
  datatype DragMode =
    | DragNone
    | SelectBox(startPt: Point, lastPt: Point)
    | CreateShape(shapeId: nat, startPt: Point, lastPt: Point)
    | DragShapes(lastPt: Point, clickShape: nat, clearSelect: bool)
    | DragResize(clickBox: nat, dragVertex: SB.DragVertex)

  /** What the pointer is over while no button is held. */
  datatype HoverItem =
    | HoverNone
    | HoverVertex(id: nat, vertex: SB.DragVertex)
    | HoverShape(id: nat, shape: Shapes.Shape)
    | HoverRect(id: nat)

  /** The palette of shapes new ones are created from. */
  datatype ShapeBar = ShapeBar(shapes: map<nat, Shapes.Shape>)

  /** The canvas, the selection boxes by shape id, the palette, the gesture and the hover item. */
  datatype AppState = AppState(
    drawList: DrawLists.DrawList,
    selection: map<nat, Rect>,
    shapeBar: ShapeBar,
    dragMode: DragMode,
    hoverItem: HoverItem)

  /** A handler's new state and the cursor it chose. */
  datatype Handled = Handled(state: AppState, cursor: SB.Cursor)

  /** `AppState::new`: an empty selection, no gesture and nothing hovered. */
  function Init(dl: DrawLists.DrawList, bar: ShapeBar): (s: AppState)
    ensures s.drawList == dl && s.shapeBar == bar
    ensures |s.selection| == 0 && s.dragMode == DragNone && s.hoverItem == HoverNone
  {
    AppState(dl, map[], bar, DragNone, HoverNone)
  }

  /** `ShapeBar::click_shape`: some palette shape hit at `p`, or None when none is. */
  ghost function BarClick(env: Shapes.Env, bar: ShapeBar, p: Point): (r: Option<nat>)
    ensures r.Some? ==> r.value in bar.shapes && Shapes.Hit(env, bar.shapes[r.value], p)
    ensures r.None? ==> forall id :: id in bar.shapes ==> !Shapes.Hit(env, bar.shapes[id], p)
  {
    if exists id :: id in bar.shapes && Shapes.Hit(env, bar.shapes[id], p) then
      var id :| id in bar.shapes && Shapes.Hit(env, bar.shapes[id], p);
      Some(id)
    else
      None
  }

  /** `fuzzy_hover_rect`: some selection box whose padded region holds `p`, or None. */
  ghost function FuzzyHoverRect(selection: map<nat, Rect>, p: Point): (r: Option<nat>)
    ensures r.Some? ==> r.value in selection && SB.FuzzyInBounds(selection[r.value], p)
    ensures r.None? ==> forall id :: id in selection ==> !SB.FuzzyInBounds(selection[id], p)
  {
    if exists id :: id in selection && SB.FuzzyInBounds(selection[id], p) then
      var id :| id in selection && SB.FuzzyInBounds(selection[id], p);
      Some(id)
    else
      None
  }

  /** The size a shape gets when it is created from a click without a drag. */
  const DefaultSize: real := 30.0

  /**
    `ShapeBar::get_shape`: a new shape of the palette entry `id` placed in
    `r`. A polygon takes `r`'s corner and extent, or the default size centred
    on the click when `r` is a single point, and is outlined as a ring when a
    circle is not filled; a line is copied as it is.
   */
  function GetShape(env: Shapes.Env, bar: ShapeBar, id: nat, r: Rect, fill: bool): (s: Shapes.Shape)
    requires id in bar.shapes
    ensures s.Polygon? == bar.shapes[id].Polygon?
    ensures s.Line? ==> s == bar.shapes[id]
    ensures s.Polygon? ==> s.poly.fill == fill
  {
    var empty := r.c1 == r.c2;
    var size := if empty then Point(DefaultSize, DefaultSize) else Point(Width(r), Height(r));
    var rect0 := Prims.RotateRect(r.c1, size, 0.0);
    var rect := if empty then env.setCenter(rect0, r.c1) else rect0;
    match bar.shapes[id]
    case Line(_) => bar.shapes[id]
    case Polygon(poly) =>
      var prim := if !fill && poly.prim == Prims.Circle then Prims.Ring else poly.prim;
      Shapes.Polygon(Prims.DrawPolygon(prim, fill, rect))
  }

  /**
    A created polygon spans a normalised box exactly, unrotated; from a
    single point it gets the default size and is centred there.
   */
  lemma GetShapePlacement(env: Shapes.Env, bar: ShapeBar, id: nat, r: Rect, fill: bool)
    requires id in bar.shapes && bar.shapes[id].Polygon?
    ensures var s := GetShape(env, bar, id, r, fill);
      && (Normalized(r) && r.c1 != r.c2 ==> s.poly.rect == Prims.RotateRect(r.c1, Sub(r.c2, r.c1), 0.0))
      && (r.c1 == r.c2 ==> s.poly.rect == env.setCenter(Prims.RotateRect(r.c1, Point(DefaultSize, DefaultSize), 0.0), r.c1))
  {
  }

  /**
    A created polygon is the palette's primitive as `ShapeBuilder::fill`
    leaves it (the palette holds no rings), and it is hit in model space
    exactly where the palette's primitive is.
   */
  lemma GetShapeIsFilledPrim(env: Shapes.Env, bar: ShapeBar, id: nat, r: Rect, fill: bool, q: Point)
    requires id in bar.shapes && bar.shapes[id].Polygon?
    ensures var s := GetShape(env, bar, id, r, fill);
      && (bar.shapes[id].poly.prim != Prims.Ring ==> s.poly.prim == Prims.Fill(bar.shapes[id].poly, fill).prim)
      && Prims.InBounds(s.poly.prim, q) == Prims.InBounds(bar.shapes[id].poly.prim, q)
  {
    Prims.FillKeepsHitRegion(bar.shapes[id].poly, fill, q);
  }

  /** `get_shape_select_box`: the bounding box of the shape's vertices. */
  function SelectBoxOf(env: Shapes.Env, s: Shapes.Shape): (r: Rect)
    ensures Normalized(r)
    ensures forall i :: 0 <= i < |Shapes.ShapeVerts(env, s)| ==> Rects.InBounds(r, Shapes.ShapeVerts(env, s)[i])
    ensures s.Line? ==> r == New(s.line.p1, s.line.p2)
  {
    var r := BoundingBox(Shapes.ShapeVerts(env, s));
    if s.Line? then BoundsOfTwo(s.line.p1, s.line.p2, r); r else r
  }

  /**
    `handle_hover_click`: a press while something is hovered. A press inside
    the hovered box starts moving the selection, a press on a hovered handle
    starts resizing with it, and a press with a palette shape in hand starts
    creating that shape; a press in the box's padding, or with nothing
    hovered, changes nothing.
   */
  function HandleHoverClick(s: AppState, pt: Point, clearSelect: bool): (h: Handled)
    requires s.hoverItem.HoverRect? ==> s.hoverItem.id in s.selection
    ensures h.state.drawList == s.drawList && h.state.selection == s.selection && h.state.shapeBar == s.shapeBar
    ensures s.hoverItem.HoverRect? && Rects.InBounds(s.selection[s.hoverItem.id], pt) ==>
      h == Handled(s.(dragMode := DragShapes(pt, s.hoverItem.id, clearSelect)), SB.Hand)
    ensures s.hoverItem.HoverRect? && !Rects.InBounds(s.selection[s.hoverItem.id], pt) ==> h == Handled(s, SB.Arrow)
    ensures s.hoverItem.HoverVertex? ==>
      h == Handled(s.(dragMode := DragResize(s.hoverItem.id, s.hoverItem.vertex)), SB.HoverCursor(s.hoverItem.vertex))
    ensures s.hoverItem.HoverShape? ==>
      h == Handled(s.(dragMode := CreateShape(s.hoverItem.id, pt, pt), hoverItem := HoverNone), SB.Crosshair)
    ensures s.hoverItem.HoverNone? ==> h == Handled(s, SB.Arrow)
  {
    match s.hoverItem
    case HoverRect(id) =>
      if Rects.InBounds(s.selection[id], pt) then
        Handled(s.(dragMode := DragShapes(pt, id, clearSelect)), SB.Hand)
      else
        Handled(s, SB.Arrow)
    case HoverVertex(id, v) =>
      Handled(s.(dragMode := DragResize(id, v)), SB.HoverCursor(v))
    case HoverShape(id, _) =>
      Handled(s.(dragMode := CreateShape(id, pt, pt), hoverItem := HoverNone), SB.Crosshair)
    case HoverNone =>
      Handled(s, SB.Arrow)
  }

  /**
    `handle_select`: a press over nothing hovered. Without ctrl the selection
    is cleared first. A palette shape becomes the hover item to be placed; a
    canvas shape is raised, selected and starts a move; empty canvas starts
    a selection box, unless ctrl is held.
   */
  ghost function HandleSelect(env: Shapes.Env, s: AppState, pt: Point, clearSelect: bool): (h: Handled)
    ensures h.state.shapeBar == s.shapeBar
    ensures clearSelect ==> forall id :: id in h.state.selection ==> h.state.hoverItem == HoverRect(id)
    ensures !clearSelect ==> s.selection.Keys <= h.state.selection.Keys
  {
    var sel := if clearSelect then map[] else s.selection;
    match BarClick(env, s.shapeBar, pt)
    case Some(id) =>
      var shape := GetShape(env, s.shapeBar, id, New(pt, pt), false);
      Handled(s.(selection := sel, hoverItem := HoverShape(id, shape)), SB.Crosshair)
    case None =>
      var c := DrawLists.ClickShape(env, s.drawList, pt);
      match c.id
      case Some(cid) =>
        var box := SelectBoxOf(env, c.list.m[cid]);
        Handled(AppState(c.list, sel[cid := box], s.shapeBar, DragShapes(pt, cid, clearSelect), HoverRect(cid)), SB.Hand)
      case None =>
        var mode := if clearSelect then SelectBox(pt, pt) else s.dragMode;
        Handled(s.(selection := sel, dragMode := mode), SB.Arrow)
  }

  /** A corner drag divides by the box width, which the source leaves to floating point when it is zero. */
  predicate ResizeDefined(s: AppState) {
    s.dragMode.DragResize? && s.dragMode.clickBox in s.selection && SB.IsCorner(s.dragMode.dragVertex) ==>
      Width(s.selection[s.dragMode.clickBox]) != 0.0
  }

  /**
    A selected vertical line leaves a corner resize undefined: its selection
    box has no width, so every corner handle of it makes `drag_side` divide
    by zero.
   */
  lemma VerticalLineCornerResizeUndefined(env: Shapes.Env, s: AppState, l: Shapes.DrawLine, id: nat, v: SB.DragVertex)
    requires l.p1.x == l.p2.x && SB.IsCorner(v)
    requires id in s.selection && s.selection[id] == SelectBoxOf(env, Shapes.Line(l))
    ensures Width(s.selection[id]) == 0.0
    ensures !ResizeDefined(s.(dragMode := DragResize(id, v)))
  {
  }

  /** Every selected shape and its box moved by `d`. */
  function MoveSelection(s: AppState, d: Point): (t: AppState)
    ensures t.selection.Keys == s.selection.Keys
    ensures forall id :: id in s.selection ==> t.selection[id] == Rects.Drag(s.selection[id], d)
    ensures t.drawList == DrawLists.TranslateShapes(s.drawList, s.selection.Keys, d)
  {
    s.(drawList := DrawLists.TranslateShapes(s.drawList, s.selection.Keys, d),
       selection := map id | id in s.selection :: Rects.Drag(s.selection[id], d))
  }

  /**
    `handle_drag`: motion during a gesture. A move drags the selection by
    the pointer's displacement and is no longer a plain click; a selection
    box reselects every shape with a vertex inside it; a resize moves the
    box's handle and fits the shape to the new box; a creation follows the
    pointer.
   */
  function HandleDrag(env: Shapes.Env, s: AppState, pt: Point): (h: Handled)
    requires ResizeDefined(s)
    ensures h.state.shapeBar == s.shapeBar && h.state.hoverItem == s.hoverItem
    ensures h.state.dragMode.DragNone? == s.dragMode.DragNone?
  {
    match s.dragMode
    case DragShapes(last, cs, _) =>
      var t := MoveSelection(s, Sub(pt, last));
      Handled(t.(dragMode := DragShapes(pt, cs, false)), SB.Hand)
    case SelectBox(start, _) =>
      var chosen := DrawLists.BoxSelection(env, s.drawList, New(start, pt));
      var sel := map id | id in chosen :: SelectBoxOf(env, chosen[id]);
      Handled(s.(dragMode := SelectBox(start, pt), selection := sel), SB.Arrow)
    case DragResize(cb, v) =>
      if cb in s.selection then
        var res := SB.DragSide(s.selection[cb], v, pt);
        var dl := if cb in s.drawList.m
          then DrawLists.Update(s.drawList, cb, Shapes.DragSide(s.drawList.m[cb], res.rect))
          else s.drawList;
        Handled(s.(drawList := dl, selection := s.selection[cb := res.rect], dragMode := DragResize(cb, res.vertex)),
                SB.HoverCursor(v))
      else
        Handled(s, SB.HoverCursor(v))
    case CreateShape(id, start, _) =>
      Handled(s.(dragMode := CreateShape(id, start, pt)), SB.Crosshair)
    case DragNone =>
      Handled(s, SB.Arrow)
  }

  /**
    `handle_hover`: motion with no gesture. A palette shape being placed
    follows the pointer; otherwise the pointer over a padded selection box
    hovers the handle under it or else the box, and over nothing hovers
    nothing.
   */
  ghost function HandleHover(env: Shapes.Env, s: AppState, pt: Point): (h: Handled)
    ensures h.state.drawList == s.drawList && h.state.selection == s.selection
    ensures h.state.shapeBar == s.shapeBar && h.state.dragMode == s.dragMode
  {
    match s.hoverItem
    case HoverShape(id, shape) =>
      var moved := if shape.Polygon?
        then Shapes.Polygon(shape.poly.(rect := env.setCenter(shape.poly.rect, pt)))
        else shape;
      Handled(s.(hoverItem := HoverShape(id, moved)), SB.Crosshair)
    case _ =>
      match FuzzyHoverRect(s.selection, pt)
      case Some(sid) =>
        (match SB.GetDragVertex(s.selection[sid], pt)
         case Some(v) => Handled(s.(hoverItem := HoverVertex(sid, v)), SB.HoverCursor(v))
         case None => Handled(s.(hoverItem := HoverRect(sid)), SB.Hand))
      case None =>
        Handled(s.(hoverItem := HoverNone), SB.Arrow)
  }

  /**
    The left-button release: a move that never left its click collapses the
    selection to the clicked shape, a creation adds the new shape filled and
    spanning the dragged box, and every gesture ends.
   */
  function Release(env: Shapes.Env, s: AppState): (t: AppState)
    requires s.dragMode.DragShapes? && s.dragMode.clearSelect ==> s.dragMode.clickShape in s.selection
    requires s.dragMode.CreateShape? ==> s.dragMode.shapeId in s.shapeBar.shapes
    ensures t.dragMode == DragNone
    ensures t.hoverItem == s.hoverItem && t.shapeBar == s.shapeBar
  {
    match s.dragMode
    case DragShapes(_, cs, clear) =>
      var sel := if clear then map[cs := s.selection[cs]] else s.selection;
      s.(selection := sel, dragMode := DragNone)
    case CreateShape(id, start, last) =>
      var shape := GetShape(env, s.shapeBar, id, New(start, last), true);
      s.(drawList := DrawLists.Add(s.drawList, shape), dragMode := DragNone)
    case _ =>
      s.(dragMode := DragNone)
  }

  datatype Button = LeftButton | OtherButton

  /** The pointer events the editor reacts to, with integer pixel positions. */
  datatype MouseEvent =
    | ButtonDown(button: Button, x: int, y: int, leftCtrl: bool)
    | ButtonUp(button: Button)
    | Motion(x: int, y: int)
    | OtherEvent

  /** The new state, and the cursor to show when the handler set one. */
  datatype Outcome = Outcome(state: AppState, cursor: Option<SB.Cursor>)

  /** What `handle_mouse_event` needs of a state to handle `ev` without a panic or a division by zero. */
  predicate CanHandle(s: AppState, ev: MouseEvent) {
    match ev
    case ButtonDown(b, _, _, _) =>
      b == LeftButton && s.hoverItem.HoverRect? ==> s.hoverItem.id in s.selection
    case ButtonUp(b) =>
      b == LeftButton ==>
        && (s.dragMode.DragShapes? && s.dragMode.clearSelect ==> s.dragMode.clickShape in s.selection)
        && (s.dragMode.CreateShape? ==> s.dragMode.shapeId in s.shapeBar.shapes)
    case Motion(_, _) => ResizeDefined(s)
    case OtherEvent => true
  }

  function ToPoint(x: int, y: int): Point {
    Point(x as real, y as real)
  }

  /**
    `handle_mouse_event`: a left press acts on the hover item if there is
    one and selects otherwise, clearing the selection unless left ctrl is
    held; a left release ends the gesture; motion drags when a gesture is in
    progress and hovers otherwise. Other events and buttons change nothing.
   */
  ghost function HandleMouseEvent(env: Shapes.Env, s: AppState, ev: MouseEvent): (o: Outcome)
    requires CanHandle(s, ev)
    ensures o.state.shapeBar == s.shapeBar
    ensures ev.ButtonUp? && ev.button == LeftButton ==> o.state.dragMode == DragNone && o.cursor == None
    ensures (ev.ButtonDown? || ev.Motion?) ==> (o.cursor.Some? <==> ev.Motion? || ev.button == LeftButton)
    ensures ev.OtherEvent? || (!ev.Motion? && ev.button == OtherButton) ==> o == Outcome(s, None)
  {
    match ev
    case ButtonDown(b, x, y, ctrl) =>
      if b != LeftButton then Outcome(s, None)
      else
        var pt := ToPoint(x, y);
        var h := if !s.hoverItem.HoverNone?
          then HandleHoverClick(s, pt, !ctrl)
          else HandleSelect(env, s, pt, !ctrl);
        Outcome(h.state, Some(h.cursor))
    case ButtonUp(b) =>
      if b != LeftButton then Outcome(s, None)
      else Outcome(Release(env, s), None)
    case Motion(x, y) =>
      var pt := ToPoint(x, y);
      var h := if s.dragMode.DragNone? then HandleHover(env, s, pt) else HandleDrag(env, s, pt);
      Outcome(h.state, Some(h.cursor))
    case OtherEvent =>
      Outcome(s, None)
  }

  /**
    What every reachable state keeps: the draw list is valid, the hover item
    names a live selection box or palette shape, a creation uses a palette
    shape, a move is of the hovered box, and a selection box is only drawn
    while no box is hovered. The indexing in `handle_hover_click` and in the
    release relies on it.
   */
  predicate Inv(s: AppState) {
    && DrawLists.Valid(s.drawList)
    && (match s.hoverItem
        case HoverNone => true
        case HoverVertex(id, _) => id in s.selection
        case HoverRect(id) => id in s.selection
        case HoverShape(id, _) => id in s.shapeBar.shapes)
    && (match s.dragMode
        case CreateShape(id, _, _) => id in s.shapeBar.shapes
        case DragShapes(_, cs, _) => s.hoverItem == HoverRect(cs)
        case SelectBox(_, _) => s.hoverItem.HoverNone? || s.hoverItem.HoverShape?
        case _ => true)
  }

  /** The editor starts in a state that keeps the invariant. */
  lemma InitInv(dl: DrawLists.DrawList, bar: ShapeBar)
    requires DrawLists.Valid(dl)
    ensures Inv(Init(dl, bar))
  {
  }

  /** In a state that keeps the invariant every press, release and other event can be handled. */
  lemma InvCanHandle(s: AppState, ev: MouseEvent)
    requires Inv(s) && !ev.Motion?
    ensures CanHandle(s, ev)
  {
  }

  /** Every event handled keeps the invariant. */
  lemma EventKeepsInv(env: Shapes.Env, s: AppState, ev: MouseEvent)
    requires Inv(s) && CanHandle(s, ev)
    ensures Inv(HandleMouseEvent(env, s, ev).state)
  {
    match ev
    case ButtonDown(b, x, y, ctrl) =>
      if b == LeftButton {
        if s.hoverItem.HoverNone? {
          SelectKeepsInv(env, s, ToPoint(x, y), !ctrl);
        }
      }
    case ButtonUp(b) =>
      if b == LeftButton {
        ReleaseKeepsInv(env, s);
      }
    case Motion(x, y) =>
      if !s.dragMode.DragNone? {
        DragKeepsInv(env, s, ToPoint(x, y));
      }
    case OtherEvent =>
  }

  lemma SelectKeepsInv(env: Shapes.Env, s: AppState, pt: Point, clearSelect: bool)
    requires Inv(s) && s.hoverItem.HoverNone?
    ensures Inv(HandleSelect(env, s, pt, clearSelect).state)
  {
    if BarClick(env, s.shapeBar, pt).None? {
      DrawLists.ClickShapePreservesValid(env, s.drawList, pt);
    }
  }

  lemma DragKeepsInv(env: Shapes.Env, s: AppState, pt: Point)
    requires Inv(s) && ResizeDefined(s)
    ensures Inv(HandleDrag(env, s, pt).state)
  {
    match s.dragMode
    case DragShapes(last, _, _) =>
      DrawLists.TranslateRoundTrip(s.drawList, s.selection.Keys, Sub(pt, last));
    case DragResize(cb, v) =>
      if cb in s.selection && cb in s.drawList.m {
        var res := SB.DragSide(s.selection[cb], v, pt);
        DrawLists.UpdatePreservesValid(s.drawList, cb, Shapes.DragSide(s.drawList.m[cb], res.rect));
      }
    case _ =>
  }

  lemma ReleaseKeepsInv(env: Shapes.Env, s: AppState)
    requires Inv(s)
    ensures Inv(Release(env, s))
  {
    if s.dragMode.CreateShape? {
      var m := s.dragMode;
      DrawLists.AddPreservesValid(s.drawList, GetShape(env, s.shapeBar, m.shapeId, New(m.startPt, m.lastPt), true));
    }
  }

  /**
    Releasing a creation adds exactly one shape, the palette entry filled
    and placed in the box between the press and the last pointer position,
    on top of the draw order; nothing else changes but the gesture.
   */
  lemma ReleaseAddsOneShape(env: Shapes.Env, s: AppState)
    requires Inv(s) && s.dragMode.CreateShape?
    ensures var t := HandleMouseEvent(env, s, ButtonUp(LeftButton)).state;
      var m := s.dragMode;
      var shape := GetShape(env, s.shapeBar, m.shapeId, New(m.startPt, m.lastPt), true);
      && t.drawList == DrawLists.Add(s.drawList, shape)
      && |t.drawList.m| == |s.drawList.m| + 1
      && t.drawList.m.Keys == s.drawList.m.Keys + {s.drawList.nextId}
      && t.drawList.drawOrder == s.drawList.drawOrder + [s.drawList.nextId]
      && t.selection == s.selection && t.dragMode == DragNone
  {
    var m := s.dragMode;
    DrawLists.AddPreservesValid(s.drawList, GetShape(env, s.shapeBar, m.shapeId, New(m.startPt, m.lastPt), true));
  }

  /**
    Releasing a move collapses the selection to the clicked shape's box
    exactly when the pointer never moved since the press; after a real move
    the selection stays as it is.
   */
  lemma ReleaseCollapsesUnmovedClick(env: Shapes.Env, s: AppState)
    requires Inv(s) && s.dragMode.DragShapes?
    ensures var t := HandleMouseEvent(env, s, ButtonUp(LeftButton)).state;
      var cs := s.dragMode.clickShape;
      && cs in t.selection && t.selection[cs] == s.selection[cs]
      && (s.dragMode.clearSelect ==> t.selection == map[cs := s.selection[cs]])
      && (!s.dragMode.clearSelect ==> t.selection == s.selection)
      && t.drawList == s.drawList
  {
  }

  /**
    Motion during a move drags every selected shape and its box by the
    pointer's displacement, marks the gesture as a real move, and records
    the pointer position.
   */
  lemma MotionMovesSelection(env: Shapes.Env, s: AppState, x: int, y: int)
    requires s.dragMode.DragShapes?
    ensures var o := HandleMouseEvent(env, s, Motion(x, y));
      var pt := ToPoint(x, y);
      var d := Sub(pt, s.dragMode.lastPt);
      && o.state.dragMode == DragShapes(pt, s.dragMode.clickShape, false)
      && o.cursor == Some(SB.Hand)
      && o.state.selection.Keys == s.selection.Keys
      && (forall id :: id in s.selection ==> o.state.selection[id] == Rects.Drag(s.selection[id], d))
      && (forall id :: id in s.selection && id in s.drawList.m ==> o.state.drawList.m[id] == Shapes.Drag(s.drawList.m[id], d))
      && (forall id :: id in s.drawList.m && id !in s.selection ==> o.state.drawList.m[id] == s.drawList.m[id])
  {
  }

  /**
    A move does not depend on the path the pointer took: two motions leave
    the same state as a single motion to the second position.
   */
  lemma MotionsCompose(env: Shapes.Env, s: AppState, x1: int, y1: int, x2: int, y2: int)
    requires s.dragMode.DragShapes?
    ensures var t := HandleMouseEvent(env, s, Motion(x1, y1)).state;
      HandleMouseEvent(env, t, Motion(x2, y2)).state == HandleMouseEvent(env, s, Motion(x2, y2)).state
  {
    var last, p1, p2 := s.dragMode.lastPt, ToPoint(x1, y1), ToPoint(x2, y2);
    var a, b, d := Sub(p1, last), Sub(p2, p1), Sub(p2, last);
    assert Add(a, b) == d;
    var t := HandleMouseEvent(env, s, Motion(x1, y1)).state;
    var u := HandleMouseEvent(env, t, Motion(x2, y2)).state;
    var w := HandleMouseEvent(env, s, Motion(x2, y2)).state;
    assert u.selection == w.selection by {
      forall id | id in s.selection
        ensures u.selection[id] == w.selection[id]
      {
      }
    }
    assert u.drawList.m == w.drawList.m by {
      forall id | id in s.drawList.m
        ensures u.drawList.m[id] == w.drawList.m[id]
      {
        if id in s.selection {
          DrawLists.DragCompose(s.drawList.m[id], a, b);
        }
      }
    }
  }

  /**
    A press on empty canvas, with nothing hovered and no palette shape
    under the pointer, starts a selection box and clears the selection; with
    left ctrl held it changes nothing.
   */
  lemma PressOnEmptyCanvas(env: Shapes.Env, s: AppState, x: int, y: int, ctrl: bool)
    requires s.hoverItem == HoverNone
    requires forall id :: id in s.shapeBar.shapes ==> !Shapes.Hit(env, s.shapeBar.shapes[id], ToPoint(x, y))
    requires forall k :: 0 <= k < |s.drawList.drawOrder| ==> !DrawLists.HitAt(env, s.drawList, ToPoint(x, y), k)
    ensures var o := HandleMouseEvent(env, s, ButtonDown(LeftButton, x, y, ctrl));
      && o.cursor == Some(SB.Arrow)
      && o.state.drawList == s.drawList && o.state.hoverItem == HoverNone
      && (!ctrl ==> o.state.selection == map[] && o.state.dragMode == SelectBox(ToPoint(x, y), ToPoint(x, y)))
      && (ctrl ==> o.state == s)
  {
  }

  /**
    A press on a canvas shape, with nothing hovered and no palette shape
    under the pointer, raises the topmost shape hit, selects it with its
    bounding box (adding to the selection when left ctrl is held, replacing
    it otherwise), hovers that box and starts a move.
   */
  lemma PressSelectsShape(env: Shapes.Env, s: AppState, x: int, y: int, ctrl: bool)
    requires s.hoverItem == HoverNone
    requires forall id :: id in s.shapeBar.shapes ==> !Shapes.Hit(env, s.shapeBar.shapes[id], ToPoint(x, y))
    requires exists k :: 0 <= k < |s.drawList.drawOrder| && DrawLists.HitAt(env, s.drawList, ToPoint(x, y), k)
    ensures var pt := ToPoint(x, y);
      var c := DrawLists.ClickShape(env, s.drawList, pt);
      var o := HandleMouseEvent(env, s, ButtonDown(LeftButton, x, y, ctrl));
      && c.id.Some? && c.id.value in s.drawList.m
      && o.state.drawList == c.list
      && o.state.selection == (if ctrl then s.selection else map[])[c.id.value := SelectBoxOf(env, s.drawList.m[c.id.value])]
      && o.state.dragMode == DragShapes(pt, c.id.value, !ctrl)
      && o.state.hoverItem == HoverRect(c.id.value)
      && o.cursor == Some(SB.Hand)
  {
    var c := DrawLists.ClickShape(env, s.drawList, ToPoint(x, y));
    var i :| 0 <= i < |s.drawList.drawOrder| && s.drawList.drawOrder[i] == c.id.value
      && DrawLists.HitAt(env, s.drawList, ToPoint(x, y), i);
  }

  /**
    A click on a canvas shape without moving selects that shape alone; with
    left ctrl held it is added to the selection.
   */
  lemma ClickSelectsShape(env: Shapes.Env, s: AppState, x: int, y: int, ctrl: bool)
    requires Inv(s) && s.hoverItem == HoverNone
    requires forall id :: id in s.shapeBar.shapes ==> !Shapes.Hit(env, s.shapeBar.shapes[id], ToPoint(x, y))
    requires exists k :: 0 <= k < |s.drawList.drawOrder| && DrawLists.HitAt(env, s.drawList, ToPoint(x, y), k)
    ensures var c := DrawLists.ClickShape(env, s.drawList, ToPoint(x, y));
      var t := HandleMouseEvent(env, s, ButtonDown(LeftButton, x, y, ctrl)).state;
      var u := HandleMouseEvent(env, t, ButtonUp(LeftButton)).state;
      && u.selection.Keys == (if ctrl then s.selection.Keys + {c.id.value} else {c.id.value})
      && u.dragMode == DragNone && u.hoverItem == HoverRect(c.id.value)
  {
    PressSelectsShape(env, s, x, y, ctrl);
  }

  /**
    With one normalised box selected, moving the pointer onto one of its
    handles hovers that handle and shows its resize cursor, and a press there
    starts resizing with it.
   */
  lemma PressOnHandleResizes(env: Shapes.Env, s: AppState, sid: nat, v: SB.DragVertex, x: int, y: int, ctrl: bool)
    requires s.dragMode == DragNone && !s.hoverItem.HoverShape?
    requires s.selection.Keys == {sid} && Normalized(s.selection[sid])
    requires SB.GetDragVertex(s.selection[sid], ToPoint(x, y)) == Some(v)
    ensures var o := HandleMouseEvent(env, s, Motion(x, y));
      var p := HandleMouseEvent(env, o.state, ButtonDown(LeftButton, x, y, ctrl));
      && o.state.hoverItem == HoverVertex(sid, v) && o.cursor == Some(SB.HoverCursor(v))
      && p.state.dragMode == DragResize(sid, v) && p.cursor == Some(SB.HoverCursor(v))
  {
    SB.FuzzyCoversBoxAndHandles(s.selection[sid], ToPoint(x, y));
  }

  /**
    Motion during a resize moves the dragged handle of the box, continues
    with the handle `drag_side` returns, fits the shape to the new box, and
    shows the cursor of the handle dragged, which the returned one shares.
   */
  lemma MotionResizes(env: Shapes.Env, s: AppState, x: int, y: int)
    requires s.dragMode.DragResize? && s.dragMode.clickBox in s.selection && ResizeDefined(s)
    ensures var cb, v := s.dragMode.clickBox, s.dragMode.dragVertex;
      var res := SB.DragSide(s.selection[cb], v, ToPoint(x, y));
      var o := HandleMouseEvent(env, s, Motion(x, y));
      && o.state.selection == s.selection[cb := res.rect]
      && o.state.dragMode == DragResize(cb, res.vertex)
      && o.cursor == Some(SB.HoverCursor(v)) && o.cursor == Some(SB.HoverCursor(res.vertex))
      && (cb in s.drawList.m ==> o.state.drawList.m[cb] == Shapes.DragSide(s.drawList.m[cb], res.rect))
      && o.state.drawList.m.Keys == s.drawList.m.Keys
  {
  }

  /**
    Motion while dragging a selection box selects exactly the shapes with a
    vertex inside the box from the press to the pointer, each with its
    bounding box, whatever was selected before.
   */
  lemma MotionSelectsInBox(env: Shapes.Env, s: AppState, x: int, y: int)
    requires s.dragMode.SelectBox?
    ensures var box := New(s.dragMode.startPt, ToPoint(x, y));
      var o := HandleMouseEvent(env, s, Motion(x, y));
      && (forall id :: id in o.state.selection <==> id in s.drawList.m && Shapes.InSelectBox(env, s.drawList.m[id], box))
      && (forall id :: id in o.state.selection ==> o.state.selection[id] == SelectBoxOf(env, s.drawList.m[id]))
      && o.state.dragMode == SelectBox(s.dragMode.startPt, ToPoint(x, y))
  {
  }

  /**
    Motion with no gesture in progress. A palette shape in hand follows the
    pointer, centred on it, with Crosshair. Otherwise the pointer over the
    padded region of a selection box hovers the handle under it with that
    handle's cursor, or else the box with Hand; away from every box it
    hovers nothing, with Arrow. Nothing but the hover item changes.
   */
  lemma MotionHovers(env: Shapes.Env, s: AppState, x: int, y: int)
    requires s.dragMode == DragNone
    ensures var pt := ToPoint(x, y);
      var o := HandleMouseEvent(env, s, Motion(x, y));
      && o.state == s.(hoverItem := o.state.hoverItem)
      && (s.hoverItem.HoverShape? ==>
            var sh := s.hoverItem.shape;
            && o.cursor == Some(SB.Crosshair)
            && o.state.hoverItem == HoverShape(s.hoverItem.id,
                 if sh.Polygon? then Shapes.Polygon(sh.poly.(rect := env.setCenter(sh.poly.rect, pt))) else sh))
      && (!s.hoverItem.HoverShape? ==>
            && (o.state.hoverItem.HoverNone? <==> forall id :: id in s.selection ==> !SB.FuzzyInBounds(s.selection[id], pt))
            && (o.state.hoverItem.HoverNone? ==> o.cursor == Some(SB.Arrow))
            && (o.state.hoverItem.HoverVertex? ==>
                  var id, v := o.state.hoverItem.id, o.state.hoverItem.vertex;
                  && id in s.selection && SB.FuzzyInBounds(s.selection[id], pt)
                  && SB.GetDragVertex(s.selection[id], pt) == Some(v)
                  && o.cursor == Some(SB.HoverCursor(v)))
            && (o.state.hoverItem.HoverRect? ==>
                  var id := o.state.hoverItem.id;
                  && id in s.selection && SB.FuzzyInBounds(s.selection[id], pt)
                  && SB.GetDragVertex(s.selection[id], pt) == None
                  && o.cursor == Some(SB.Hand))
            && !o.state.hoverItem.HoverShape?)
  {
  }

  /**
    A press with nothing hovered on a palette shape picks that shape up: it
    becomes the hover item, outlined and of the default size at the pointer,
    with Crosshair; the selection is cleared unless left ctrl is held, and
    the canvas and the gesture are kept.
   */
  lemma PressOnPalette(env: Shapes.Env, s: AppState, x: int, y: int, ctrl: bool)
    requires s.hoverItem == HoverNone
    requires exists id :: id in s.shapeBar.shapes && Shapes.Hit(env, s.shapeBar.shapes[id], ToPoint(x, y))
    ensures var pt := ToPoint(x, y);
      var o := HandleMouseEvent(env, s, ButtonDown(LeftButton, x, y, ctrl));
      && o.state.hoverItem.HoverShape?
      && var id := o.state.hoverItem.id;
      && id in s.shapeBar.shapes && Shapes.Hit(env, s.shapeBar.shapes[id], pt)
      && o.state.hoverItem.shape == GetShape(env, s.shapeBar, id, New(pt, pt), false)
      && o.cursor == Some(SB.Crosshair)
      && o.state.selection == (if ctrl then s.selection else map[])
      && o.state.drawList == s.drawList && o.state.dragMode == s.dragMode
  {
  }

  /** Motion while creating a shape records the pointer as the box's far corner, with Crosshair; nothing else changes. */
  lemma CreateFollowsPointer(env: Shapes.Env, s: AppState, x: int, y: int)
    requires s.dragMode.CreateShape?
    ensures var o := HandleMouseEvent(env, s, Motion(x, y));
      && o.state == s.(dragMode := CreateShape(s.dragMode.shapeId, s.dragMode.startPt, ToPoint(x, y)))
      && o.cursor == Some(SB.Crosshair)
  {
  }

  /**
    The whole creation gesture: with a palette shape in hand, a press at one
    point, motion to another and a release add exactly one shape, the
    palette entry filled and spanning the box between the two points, and
    end the gesture.
   */
  lemma CreateSpansPressToRelease(env: Shapes.Env, s: AppState, x1: int, y1: int, x2: int, y2: int, ctrl: bool)
    requires Inv(s) && s.hoverItem.HoverShape?
    ensures var id := s.hoverItem.id;
      var t1 := HandleMouseEvent(env, s, ButtonDown(LeftButton, x1, y1, ctrl)).state;
      var t2 := HandleMouseEvent(env, t1, Motion(x2, y2)).state;
      && CanHandle(t2, ButtonUp(LeftButton))
      && var t3 := HandleMouseEvent(env, t2, ButtonUp(LeftButton)).state;
      && t3.drawList == DrawLists.Add(s.drawList, GetShape(env, s.shapeBar, id, New(ToPoint(x1, y1), ToPoint(x2, y2)), true))
      && t3.selection == s.selection && t3.dragMode == DragNone && t3.hoverItem == HoverNone
  {
    var t1 := HandleMouseEvent(env, s, ButtonDown(LeftButton, x1, y1, ctrl)).state;
    assert t1.dragMode == CreateShape(s.hoverItem.id, ToPoint(x1, y1), ToPoint(x1, y1));
    CreateFollowsPointer(env, t1, x2, y2);
  }
}

=== FILE: draw_list.dfy ===
/**
  `DrawList`: the shapes on the canvas by id, the order they are drawn in
  (last drawn is on top), and the next id to hand out. Clicking picks the
  topmost shape under the pointer and raises it to the top.
 */
module DrawLists {
  import opened Options
  import opened Points
  import opened Rects
  import Shapes

  datatype DrawList = DrawList(m: map<nat, Shapes.Shape>, drawOrder: seq<nat>, nextId: nat)

  predicate Distinct(s: seq<nat>) {
    forall i, j :: 0 <= i < j < |s| ==> s[i] != s[j]
  }

  /**
    What the program maintains: every stored shape is drawn exactly once,
    only stored shapes are drawn, and every id is below the next one handed
    out.
   */
  predicate Valid(dl: DrawList) {
    && (forall id :: id in dl.m ==> id in dl.drawOrder)
    && (forall k :: 0 <= k < |dl.drawOrder| ==> dl.drawOrder[k] in dl.m)
    && Distinct(dl.drawOrder)
    && (forall id :: id in dl.m ==> id < dl.nextId)
  }

  /** `DrawList::new`. */
  function Empty(): (dl: DrawList)
    ensures Valid(dl) && |dl.m| == 0 && |dl.drawOrder| == 0
  {
    DrawList(map[], [], 0)
  }

  /** `DrawList::add`: the shape gets the next id and is drawn on top. */
  function Add(dl: DrawList, s: Shapes.Shape): (r: DrawList)
    ensures dl.nextId in r.m && r.m[dl.nextId] == s
    ensures |r.drawOrder| > 0 && r.drawOrder[|r.drawOrder| - 1] == dl.nextId
    ensures r.drawOrder[..|r.drawOrder| - 1] == dl.drawOrder
    ensures forall id :: id in dl.m && id != dl.nextId ==> id in r.m && r.m[id] == dl.m[id]
    ensures r.nextId == dl.nextId + 1
    ensures forall id :: id in r.m ==> id in dl.m || id == dl.nextId
  {
    DrawList(dl.m[dl.nextId := s], dl.drawOrder + [dl.nextId], dl.nextId + 1)
  }

  /** Adding keeps the list valid, grows it by exactly one shape, and never reuses an id. */
  lemma AddPreservesValid(dl: DrawList, s: Shapes.Shape)
    requires Valid(dl)
    ensures Valid(Add(dl, s))
    ensures dl.nextId !in dl.m
    ensures |Add(dl, s).m| == |dl.m| + 1
    ensures Add(dl, s).m.Keys == dl.m.Keys + {dl.nextId}
  {
    var r := Add(dl, s);
    var o := dl.drawOrder;
    assert r.drawOrder == o + [dl.nextId];
    assert dl.nextId !in o by {
      forall k | 0 <= k < |o|
        ensures o[k] != dl.nextId
      {
        assert o[k] in dl.m;
      }
    }
    forall id | id in r.m
      ensures id in r.drawOrder
    {
      if id != dl.nextId {
        assert id in o;
      }
    }
    forall k | 0 <= k < |r.drawOrder|
      ensures r.drawOrder[k] in r.m
    {
      if k < |o| {
        assert r.drawOrder[k] == o[k];
      }
    }
    assert Distinct(r.drawOrder);
    assert r.m.Keys == dl.m.Keys + {dl.nextId};
  }

  /** The shape drawn at position `k` exists and is hit at `p` (a missing id never is). */
  predicate HitAt(env: Shapes.Env, dl: DrawList, p: Point, k: int)
    requires 0 <= k < |dl.drawOrder|
  {
    dl.drawOrder[k] in dl.m && Shapes.Hit(env, dl.m[dl.drawOrder[k]], p)
  }

  /** The highest draw position below `n` whose shape is hit: the reverse scan of `click_shape`. */
  function TopmostHit(env: Shapes.Env, dl: DrawList, p: Point, n: nat): (r: Option<nat>)
    requires n <= |dl.drawOrder|
    ensures r.Some? ==> r.value < n && HitAt(env, dl, p, r.value)
    ensures r.Some? ==> forall k :: r.value < k < n ==> !HitAt(env, dl, p, k)
    ensures r.None? ==> forall k :: 0 <= k < n ==> !HitAt(env, dl, p, k)
  {
    if n == 0 then None
    else if HitAt(env, dl, p, n - 1) then Some(n - 1)
    else TopmostHit(env, dl, p, n - 1)
  }

  /** The list after a click, and the id of the shape clicked, if any. */
  datatype Clicked = Clicked(list: DrawList, id: Option<nat>)

  /** The draw order with position `i` moved to the end. */
  function RaiseToTop(order: seq<nat>, i: nat): seq<nat>
    requires i < |order|
  {
    order[..i] + order[i + 1..] + [order[i]]
  }

  /**
    `DrawList::click_shape`: the topmost shape hit at `p` is raised to the
    top of the draw order and its id returned; when none is hit nothing
    changes.
   */
  function ClickShape(env: Shapes.Env, dl: DrawList, p: Point): (c: Clicked)
    ensures c.id.Some? <==> exists k :: 0 <= k < |dl.drawOrder| && HitAt(env, dl, p, k)
    ensures c.id.None? ==> c.list == dl
    ensures c.id.Some? ==> exists i :: (0 <= i < |dl.drawOrder| && dl.drawOrder[i] == c.id.value
      && HitAt(env, dl, p, i)
      && (forall k :: i < k < |dl.drawOrder| ==> !HitAt(env, dl, p, k))
      && c.list == dl.(drawOrder := RaiseToTop(dl.drawOrder, i)))
    ensures c.list.m == dl.m && c.list.nextId == dl.nextId
    ensures multiset(c.list.drawOrder) == multiset(dl.drawOrder)
  {
    match TopmostHit(env, dl, p, |dl.drawOrder|)
    case None => Clicked(dl, None)
    case Some(i) =>
      RaisePermutes(dl.drawOrder, i);
      Clicked(dl.(drawOrder := RaiseToTop(dl.drawOrder, i)), Some(dl.drawOrder[i]))
  }

  lemma RaisePermutes(order: seq<nat>, i: nat)
    requires i < |order|
    ensures multiset(RaiseToTop(order, i)) == multiset(order)
    ensures |RaiseToTop(order, i)| == |order|
  {
    assert order == order[..i] + [order[i]] + order[i + 1..];
  }

  /** Raising an element of a distinct sequence keeps it distinct. */
  lemma RaiseKeepsDistinct(order: seq<nat>, i: nat)
    requires i < |order| && Distinct(order)
    ensures Distinct(RaiseToTop(order, i))
  {
    var r := RaiseToTop(order, i);
    RaisePermutes(order, i);
    forall a, b | 0 <= a < b < |r|
      ensures r[a] != r[b]
    {
      var ia := if a < i then a else a + 1;
      assert r[a] == order[ia];
      if b == |r| - 1 {
        assert r[b] == order[i];
      } else {
        var ib := if b < i then b else b + 1;
        assert r[b] == order[ib];
      }
    }
  }

  /** Clicking keeps the list valid. */
  lemma ClickShapePreservesValid(env: Shapes.Env, dl: DrawList, p: Point)
    requires Valid(dl)
    ensures Valid(ClickShape(env, dl, p).list)
  {
    var c := ClickShape(env, dl, p);
    if c.id.Some? {
      var i := TopmostIndex(env, dl, p);
      var o := RaiseToTop(dl.drawOrder, i);
      assert c.list == dl.(drawOrder := o);
      RaiseKeepsDistinct(dl.drawOrder, i);
      RaisePermutes(dl.drawOrder, i);
      PermutationKeepsMembers(dl.drawOrder, o);
      assert forall id :: id in dl.m ==> id in o;
      assert forall k :: 0 <= k < |o| ==> o[k] in dl.m by {
        forall k | 0 <= k < |o| ensures o[k] in dl.m {
          assert o[k] in dl.drawOrder;
        }
      }
    }
  }

  /** Two orderings of the same multiset have the same members. */
  lemma PermutationKeepsMembers(a: seq<nat>, b: seq<nat>)
    requires multiset(a) == multiset(b)
    ensures forall id :: id in a <==> id in b
  {
    forall id
      ensures id in a <==> id in b
    {
      assert id in multiset(a) <==> id in multiset(b);
    }
  }

  /**
    A second click at the same point picks the same shape and leaves the
    order as the first click left it: the raised shape is on top and still
    hit, so a click never reaches a shape below it.
   */
  lemma ClickTwiceSame(env: Shapes.Env, dl: DrawList, p: Point)
    ensures var c1 := ClickShape(env, dl, p);
      var c2 := ClickShape(env, c1.list, p);
      c2.id == c1.id && c2.list == c1.list
  {
    var c1 := ClickShape(env, dl, p);
    if c1.id.Some? {
      var i := TopmostIndex(env, dl, p);
      var l := c1.list;
      RaisePermutes(dl.drawOrder, i);
      var n := |l.drawOrder|;
      assert l.drawOrder[n - 1] == dl.drawOrder[i];
      assert HitAt(env, dl, p, i);
      ClickWhenTopHit(env, l, p);
    }
  }

  /** When the shape on top is hit, a click picks it and leaves the order as it is. */
  lemma ClickWhenTopHit(env: Shapes.Env, dl: DrawList, p: Point)
    requires |dl.drawOrder| > 0 && HitAt(env, dl, p, |dl.drawOrder| - 1)
    ensures ClickShape(env, dl, p) == Clicked(dl, Some(dl.drawOrder[|dl.drawOrder| - 1]))
  {
    var n := |dl.drawOrder|;
    assert TopmostHit(env, dl, p, n) == Some(n - 1);
    assert RaiseToTop(dl.drawOrder, n - 1) == dl.drawOrder;
  }

  /** The draw position a successful click raises. */
  function TopmostIndex(env: Shapes.Env, dl: DrawList, p: Point): (i: nat)
    requires ClickShape(env, dl, p).id.Some?
    ensures i < |dl.drawOrder|
    ensures ClickShape(env, dl, p).list == dl.(drawOrder := RaiseToTop(dl.drawOrder, i))
    ensures ClickShape(env, dl, p).id == Some(dl.drawOrder[i])
  {
    TopmostHit(env, dl, p, |dl.drawOrder|).value
  }

  /**
    Two overlapping shapes both hit at `p`, the second added on top: a click
    picks the second and raises it, leaving the first below, and every
    further click at `p` picks the second again.
   */
  lemma ClickPicksLastAdded(env: Shapes.Env, a: Shapes.Shape, b: Shapes.Shape, p: Point)
    requires Shapes.Hit(env, a, p) && Shapes.Hit(env, b, p)
    ensures var dl := Add(Add(Empty(), a), b);
      var c := ClickShape(env, dl, p);
      && c.id == Some(1)
      && c.list == dl
      && ClickShape(env, c.list, p).id == Some(1)
  {
    var dl := Add(Add(Empty(), a), b);
    assert dl == DrawList(map[0 := a, 1 := b], [0, 1], 2);
    assert dl.m[1] == b;
    assert HitAt(env, dl, p, 1);
    assert TopmostHit(env, dl, p, 2) == Some(1);
    assert RaiseToTop(dl.drawOrder, 1) == dl.drawOrder;
  }

  /**
    `DrawList::get_box_selection`: every shape with at least one vertex
    inside `r`, by id.
   */
  function BoxSelection(env: Shapes.Env, dl: DrawList, r: Rect): (sel: map<nat, Shapes.Shape>)
    ensures forall id :: id in sel ==> id in dl.m && sel[id] == dl.m[id]
  {
    map id | id in dl.m && Shapes.InSelectBox(env, dl.m[id], r) :: dl.m[id]
  }

  /** A shape is box-selected exactly when one of its vertices lies in the box; no shape outside the list is. */
  lemma BoxSelectionMembers(env: Shapes.Env, dl: DrawList, r: Rect, id: nat)
    ensures id in BoxSelection(env, dl, r) <==>
      id in dl.m && exists i :: 0 <= i < |Shapes.ShapeVerts(env, dl.m[id])| && Rects.InBounds(r, Shapes.ShapeVerts(env, dl.m[id])[i])
  {
  }

  /** A box whose region contains another's selects at least what the smaller one does. */
  lemma BoxSelectionMonotone(env: Shapes.Env, dl: DrawList, r1: Rect, r2: Rect)
    requires forall q :: Rects.InBounds(r1, q) ==> Rects.InBounds(r2, q)
    ensures BoxSelection(env, dl, r1).Keys <= BoxSelection(env, dl, r2).Keys
  {
    forall id | id in BoxSelection(env, dl, r1)
      ensures id in BoxSelection(env, dl, r2)
    {
      var vs := Shapes.ShapeVerts(env, dl.m[id]);
      var i :| 0 <= i < |vs| && Rects.InBounds(r1, vs[i]);
      assert Rects.InBounds(r2, vs[i]);
    }
  }

  /**
    Dragging every selected shape by `d`: ids that are not in the list are
    skipped, as `get_mut` returns nothing for them.
   */
  function TranslateShapes(dl: DrawList, ids: set<nat>, d: Point): (r: DrawList)
    ensures r.m.Keys == dl.m.Keys && r.drawOrder == dl.drawOrder && r.nextId == dl.nextId
    ensures forall id :: id in dl.m && id in ids ==> r.m[id] == Shapes.Drag(dl.m[id], d)
    ensures forall id :: id in dl.m && id !in ids ==> r.m[id] == dl.m[id]
  {
    dl.(m := map id | id in dl.m :: if id in ids then Shapes.Drag(dl.m[id], d) else dl.m[id])
  }

  /**
    `get_mut(id).map(...)`: the shape stored under `id` is replaced; an id
    that is not in the list leaves it unchanged.
   */
  function Update(dl: DrawList, id: nat, s: Shapes.Shape): (r: DrawList)
    ensures r.m.Keys == dl.m.Keys && r.drawOrder == dl.drawOrder && r.nextId == dl.nextId
    ensures id in dl.m ==> r.m[id] == s
    ensures forall k :: k in dl.m && k != id ==> r.m[k] == dl.m[k]
  {
    if id in dl.m then dl.(m := dl.m[id := s]) else dl
  }

  /** Replacing a stored shape keeps the list valid. */
  lemma UpdatePreservesValid(dl: DrawList, id: nat, s: Shapes.Shape)
    requires Valid(dl)
    ensures Valid(Update(dl, id, s))
  {
    var r := Update(dl, id, s);
    assert forall k :: k in r.m <==> k in dl.m;
  }

  /** Dragging a shape by `d` and then by `-d` puts it back. */
  lemma DragRoundTrip(s: Shapes.Shape, d: Point)
    ensures Shapes.Drag(Shapes.Drag(s, d), Neg(d)) == s
  {
    match s
    case Line(l) =>
      SubAddInverse(l.p1, d);
      SubAddInverse(l.p2, d);
    case Polygon(poly) =>
      SubAddInverse(poly.rect.offset, d);
  }

  /** Dragging a shape by `a` and then by `b` is dragging it by `a + b`. */
  lemma DragCompose(s: Shapes.Shape, a: Point, b: Point)
    ensures Shapes.Drag(Shapes.Drag(s, a), b) == Shapes.Drag(s, Points.Add(a, b))
  {
  }

  /** Moving the selection by `d` and back by `-d` restores the list; it stays valid throughout. */
  lemma TranslateRoundTrip(dl: DrawList, ids: set<nat>, d: Point)
    ensures TranslateShapes(TranslateShapes(dl, ids, d), ids, Neg(d)) == dl
    ensures Valid(dl) ==> Valid(TranslateShapes(dl, ids, d))
  {
    var r := TranslateShapes(TranslateShapes(dl, ids, d), ids, Neg(d));
    forall id | id in dl.m && id in ids
      ensures r.m[id] == dl.m[id]
    {
      DragRoundTrip(dl.m[id], d);
    }
    assert r.m == dl.m;
  }
}

=== FILE: handle_events.dfy ===
/**
  The per-gesture move handlers of the event-handler redesign: each gesture
  is a small record that handles a pointer move for one shape id and hands
  itself back. In this design the selection boxes are rotated rects, so a
  box and its polygon share one placement record.

  The rotation angle of the pointer around a box (`get_rotate_angle`), the
  conversion that stores an angle in a box (`set_radians`) and the
  rotation-aware `drag_side` are not part of this model; they are the
  parameters in `BoxOps`.
 */
module HandleEvents {
  import opened Options
  import opened Points
  import Prims
  import Shapes
  import SB = SelectBox
  import DrawLists

  /** `std::f32::consts::PI`, the single-precision value of pi. */
  const F32Pi: real := 3.1415927410125732421875

  /** The shapes and the selection boxes, by shape id. */
  datatype Canvas = Canvas(drawList: DrawLists.DrawList, selection: map<nat, Prims.RotateRect>)

  /** The box operations the handlers call: rotation angle at a point, storing an angle, and resizing by a handle. */
  datatype BoxOps = BoxOps(
    rotateAngle: (Prims.RotateRect, Point) -> real,
    setRadians: (Prims.RotateRect, real) -> Prims.RotateRect,
    dragSide: (Prims.RotateRect, SB.DragVertex, Point) -> (Prims.RotateRect, SB.DragVertex))

  /** Gestures on a selection box's handles. */
  datatype MouseShapeBar = DragResize(dragVertex: SB.DragVertex) | DragRotate(lastAngle: real)

  /** Gestures on the canvas. */
  datatype MouseCanvas = DragShapes(lastPt: Point, clearSelect: bool)

  /** Creating a shape by dragging out its box. */
  datatype ShapeCreateDrag = ShapeCreateDrag(startPt: Point, lastPt: Point)

  /** A handler's result: the gesture to continue with, the new canvas, and the cursor it set. */
  datatype Moved<T> = Moved(next: Option<T>, canvas: Canvas, cursor: SB.Cursor)

  /** The angle stored in a box, in the unit `set_radians` is given. */
  function CurrentAngle(rr: Prims.RotateRect): real {
    180.0 * rr.rot / F32Pi
  }

  /** The shape `id` takes the box's placement through `set_rect`, when it exists. */
  function SyncShape(dl: DrawLists.DrawList, id: nat, rr: Prims.RotateRect): (r: DrawLists.DrawList)
    ensures r.m.Keys == dl.m.Keys && r.drawOrder == dl.drawOrder && r.nextId == dl.nextId
    ensures id in dl.m ==> r.m[id] == Shapes.SetRect(dl.m[id], rr)
    ensures forall k :: k in dl.m && k != id ==> r.m[k] == dl.m[k]
  {
    if id in dl.m then DrawLists.Update(dl, id, Shapes.SetRect(dl.m[id], rr)) else dl
  }

  /**
    `MouseShapeBar::mouse_move`: with a box for `id`, a rotation turns it by
    the change in the pointer's angle since the last move, and a resize moves
    the dragged handle and continues with the handle returned; either way the
    shape takes the box's new placement. Without a box nothing changes.
   */
  function ShapeBarMove(g: MouseShapeBar, pt: Point, id: nat, c: Canvas, ops: BoxOps): (r: Moved<MouseShapeBar>)
    ensures r.next.Some? && r.next.value.DragRotate? == g.DragRotate?
    ensures r.canvas.selection.Keys == c.selection.Keys && r.canvas.drawList.m.Keys == c.drawList.m.Keys
    ensures id !in c.selection ==> r == Moved(Some(g), c, SB.Hand)
    ensures r.cursor == (if g.DragResize? && id in c.selection then SB.HoverCursor(g.dragVertex) else SB.Hand)
  {
    if id !in c.selection then Moved(Some(g), c, SB.Hand)
    else
      var sbox := c.selection[id];
      match g
      case DragRotate(last) =>
        var angle := ops.rotateAngle(sbox, pt);
        var box := ops.setRadians(sbox, CurrentAngle(sbox) + angle - last);
        Moved(Some(DragRotate(angle)), Canvas(SyncShape(c.drawList, id, box), c.selection[id := box]), SB.Hand)
      case DragResize(v) =>
        var (box, v') := ops.dragSide(sbox, v, pt);
        Moved(Some(DragResize(v')), Canvas(SyncShape(c.drawList, id, box), c.selection[id := box]), SB.HoverCursor(v))
  }

  /** A polygon shape with a box sits where its box does. */
  predicate Synced(c: Canvas, id: nat) {
    id in c.selection && id in c.drawList.m && c.drawList.m[id].Polygon? ==>
      c.drawList.m[id].poly.rect == c.selection[id]
  }

  /**
    A rotation passes the box's current angle plus the pointer's turn to
    `set_radians` and remembers the pointer's angle; the box's shape follows
    the box, and no other shape or box changes.
   */
  lemma RotateTurnsBox(pt: Point, id: nat, c: Canvas, ops: BoxOps, last: real)
    requires id in c.selection
    ensures var r := ShapeBarMove(DragRotate(last), pt, id, c, ops);
      var sbox := c.selection[id];
      var angle := ops.rotateAngle(sbox, pt);
      && r.next == Some(DragRotate(angle))
      && r.canvas.selection[id] == ops.setRadians(sbox, 180.0 * sbox.rot / F32Pi + angle - last)
      && Synced(r.canvas, id)
      && (forall k :: k in c.selection && k != id ==> r.canvas.selection[k] == c.selection[k])
      && (forall k :: k in c.drawList.m && k != id ==> r.canvas.drawList.m[k] == c.drawList.m[k])
  {
  }

  /**
    A resize continues with the handle `drag_side` returns, shows the cursor
    of the handle dragged before the move, and the shape follows the box.
   */
  lemma ResizeMovesHandle(pt: Point, id: nat, c: Canvas, ops: BoxOps, v: SB.DragVertex)
    requires id in c.selection
    ensures var r := ShapeBarMove(DragResize(v), pt, id, c, ops);
      var res := ops.dragSide(c.selection[id], v, pt);
      && r.next == Some(DragResize(res.1))
      && r.canvas.selection[id] == res.0
      && r.cursor == SB.HoverCursor(v)
      && Synced(r.canvas, id)
  {
  }

  /** Every box, and every polygon shape, moved by `d`. */
  function MoveSelection(c: Canvas, d: Point): (r: Canvas)
    ensures r.selection.Keys == c.selection.Keys
    ensures forall id :: id in c.selection ==> r.selection[id] == Prims.Translate(c.selection[id], d)
    ensures r.drawList == DrawLists.TranslateShapes(c.drawList, c.selection.Keys, d)
  {
    Canvas(DrawLists.TranslateShapes(c.drawList, c.selection.Keys, d),
           map id | id in c.selection :: Prims.Translate(c.selection[id], d))
  }

  /**
    `MouseCanvas::mouse_move`: the move is no longer a plain click, every
    selected shape and its box move by the pointer's displacement, and the
    pointer position is recorded.
   */
  function CanvasMove(g: MouseCanvas, pt: Point, c: Canvas): (r: Moved<MouseCanvas>)
    ensures r.next == Some(DragShapes(pt, false))
    ensures r.cursor == SB.Hand
    ensures r.canvas.selection.Keys == c.selection.Keys && r.canvas.drawList.m.Keys == c.drawList.m.Keys
  {
    Moved(Some(DragShapes(pt, false)), MoveSelection(c, Sub(pt, g.lastPt)), SB.Hand)
  }

  /** Moving the selection keeps every shape in step with its box. */
  lemma CanvasMoveKeepsSynced(g: MouseCanvas, pt: Point, c: Canvas, id: nat)
    requires Synced(c, id)
    ensures Synced(CanvasMove(g, pt, c).canvas, id)
  {
  }

  /** Two moves leave the canvas where one move to the second position does. */
  lemma CanvasMovesCompose(g: MouseCanvas, p1: Point, p2: Point, c: Canvas)
    ensures var r1 := CanvasMove(g, p1, c);
      CanvasMove(r1.next.value, p2, r1.canvas).canvas == CanvasMove(g, p2, c).canvas
  {
    var a, b, d := Sub(p1, g.lastPt), Sub(p2, p1), Sub(p2, g.lastPt);
    assert Add(a, b) == d;
    var u := CanvasMove(CanvasMove(g, p1, c).next.value, p2, CanvasMove(g, p1, c).canvas).canvas;
    var w := CanvasMove(g, p2, c).canvas;
    assert u.selection == w.selection by {
      forall id | id in c.selection
        ensures u.selection[id] == w.selection[id]
      {
      }
    }
    assert u.drawList.m == w.drawList.m by {
      forall id | id in c.drawList.m
        ensures u.drawList.m[id] == w.drawList.m[id]
      {
        if id in c.selection {
          DrawLists.DragCompose(c.drawList.m[id], a, b);
        }
      }
    }
  }

  /** `ShapeCreateDrag::mouse_move`: only the pointer position is recorded. */
  function CreateMove(g: ShapeCreateDrag, pt: Point, c: Canvas): (r: Moved<ShapeCreateDrag>)
    ensures r.next == Some(ShapeCreateDrag(g.startPt, pt))
    ensures r.canvas == c && r.cursor == SB.Hand
  {
    Moved(Some(g.(lastPt := pt)), c, SB.Hand)
  }

  /** Feeds the pointer positions `pts` to `CreateMove` in order, threading the gesture and the canvas. */
  function CreateMoves(g: ShapeCreateDrag, pts: seq<Point>, c: Canvas): Moved<ShapeCreateDrag>
    requires |pts| > 0
    decreases |pts|
  {
    var r := CreateMove(g, pts[0], c);
    if |pts| == 1 then r else CreateMoves(r.next.value, pts[1..], r.canvas)
  }

  /**
    However many create moves arrive, the gesture keeps its start point,
    holds only the last pointer position, and leaves the canvas untouched,
    with Hand.
   */
  lemma {:induction false} CreateMovesKeepLast(g: ShapeCreateDrag, pts: seq<Point>, c: Canvas)
    requires |pts| > 0
    ensures CreateMoves(g, pts, c) == Moved(Some(ShapeCreateDrag(g.startPt, pts[|pts| - 1])), c, SB.Hand)
    decreases |pts|
  {
    if |pts| > 1 {
      CreateMovesKeepLast(CreateMove(g, pts[0], c).next.value, pts[1..], c);
    }
  }
}

=== FILE: lines.dfy ===
/**
  Infinite straight lines `a*x + b*y + c == 0`, built from two points, and
  their intersection by Cramer's rule with the program's 1e-7 threshold on
  the determinant.
 */
module Lines {
  import opened Options
  import opened Points

  datatype Line = Line(a: real, b: real, c: real)

  /** The 2x2 determinant `| a b ; c d |`. */
  function Det(a: real, b: real, c: real, d: real): real {
    a * d - b * c
  }

  /** Below this magnitude the determinant counts as zero: the lines are treated as parallel. */
  const Epsilon: real := 0.0000001

  /** `p` lies on `l`. */
  predicate OnLine(l: Line, p: Point) {
    l.a * p.x + l.b * p.y + l.c == 0.0
  }

  /** The line through two points; both points satisfy its equation. */
  function FromPts(p1: Point, p2: Point): (l: Line)
    ensures OnLine(l, p1) && OnLine(l, p2)
    ensures p1 != p2 ==> l.a != 0.0 || l.b != 0.0
  {
    var a := p1.y - p2.y;
    var b := p2.x - p1.x;
    Line(a, b, -(a * p1.x + b * p1.y))
  }

  /** The line with the slope of `l` passing through `p`. */
  function FromPtSlope(p: Point, l: Line): (r: Line)
    ensures r.a == l.a && r.b == l.b
    ensures OnLine(r, p)
  {
    l.(c := -(l.a * p.x + l.b * p.y))
  }

  /**
    The common point of two lines, or None when the determinant of their
    direction coefficients is below `Epsilon` in magnitude. A returned point
    satisfies both line equations.
   */
  function Intersect(l1: Line, l2: Line): (r: Option<Point>)
    ensures r.None? <==> Abs(Det(l1.a, l1.b, l2.a, l2.b)) < Epsilon
    ensures r.Some? ==> OnLine(l1, r.value) && OnLine(l2, r.value)
  {
    var zn := Det(l1.a, l1.b, l2.a, l2.b);
    if Abs(zn) < Epsilon then None
    else
      var p := Point(-Det(l1.c, l1.b, l2.c, l2.b) / zn, -Det(l1.a, l1.c, l2.a, l2.c) / zn);
      Cramer(l1, l2, p);
      Some(p)
  }

  lemma Cramer(l1: Line, l2: Line, p: Point)
    requires Det(l1.a, l1.b, l2.a, l2.b) != 0.0
    requires p.x == -Det(l1.c, l1.b, l2.c, l2.b) / Det(l1.a, l1.b, l2.a, l2.b)
    requires p.y == -Det(l1.a, l1.c, l2.a, l2.c) / Det(l1.a, l1.b, l2.a, l2.b)
    ensures OnLine(l1, p) && OnLine(l2, p)
  {
    var zn := Det(l1.a, l1.b, l2.a, l2.b);
    assert p.x * zn == -Det(l1.c, l1.b, l2.c, l2.b);
    assert p.y * zn == -Det(l1.a, l1.c, l2.a, l2.c);
    assert (l1.a * p.x + l1.b * p.y + l1.c) * zn == 0.0;
    assert (l2.a * p.x + l2.b * p.y + l2.c) * zn == 0.0;
  }

  /** A line has a zero determinant with itself, so it is never reported as crossing itself at one point. */
  lemma NoSelfIntersection(l: Line)
    ensures Intersect(l, l).None?
  {
  }

  /**
    `dist_to_pt(p) <= w`, compared through squares. When `a == b == 0` the
    program divides by `sqrt(0)`, which yields infinity or NaN, and the
    comparison fails; a negative `w` is below every distance.
   */
  predicate DistAtMost(l: Line, p: Point, w: real) {
    var n := l.a * p.x + l.b * p.y + l.c;
    && (l.a != 0.0 || l.b != 0.0)
    && w >= 0.0
    && n * n <= w * w * (l.a * l.a + l.b * l.b)
  }

  /** The distance test depends on a line and a point only through the line's direction coefficients and the value of its equation at the point. */
  lemma SameNumeratorSameDistance(l1: Line, p1: Point, l2: Line, p2: Point, w: real)
    requires l1.a == l2.a && l1.b == l2.b
    requires l1.a * p1.x + l1.b * p1.y + l1.c == l2.a * p2.x + l2.b * p2.y + l2.c
    ensures DistAtMost(l1, p1, w) == DistAtMost(l2, p2, w)
  {
  }

  /** Every point of a proper line is within any nonnegative distance of it. */
  lemma OnLineIsNear(l: Line, p: Point, w: real)
    requires l.a != 0.0 || l.b != 0.0
    requires OnLine(l, p) && w >= 0.0
    ensures DistAtMost(l, p, w)
  {
    assert l.a * l.a >= 0.0 && l.b * l.b >= 0.0;
    assert w * w >= 0.0;
    assert w * w * (l.a * l.a + l.b * l.b) >= 0.0;
  }
}

=== FILE: points.dfy ===
/** The optional value used for lookups and searches that can fail. */
module Options {
  datatype Option<+T> = None | Some(value: T)
}

/**
  Two-dimensional points of the drawing surface, with every `f32` of the
  program idealised as a `real`. Square roots never appear: a magnitude or a
  distance compared against a radius is compared as its square.
 */
module Points {

  datatype Point = Point(x: real, y: real)

  const Origin: Point := Point(0.0, 0.0)

  function Abs(v: real): (r: real)
    ensures r >= 0.0
    ensures r == v || r == -v
  {
    if v < 0.0 then -v else v
  }

  function Add(a: Point, b: Point): Point {
    Point(a.x + b.x, a.y + b.y)
  }

  function Neg(a: Point): Point {
    Point(-a.x, -a.y)
  }

  /** Subtraction is addition of the negation, as the program defines it. */
  function Sub(a: Point, b: Point): Point {
    Add(a, Neg(b))
  }

  function Div(a: Point, d: real): Point
    requires d != 0.0
  {
    Point(a.x / d, a.y / d)
  }

  /** The square of `Point::mag`. */
  function MagSq(a: Point): real {
    a.x * a.x + a.y * a.y
  }

  /** The square of `Point::dist`. */
  function DistSq(a: Point, b: Point): real {
    MagSq(Sub(a, b))
  }

  /** Moving by a difference and back is the identity; a drag by `q - p` takes `p` to `q`. */
  lemma SubAddInverse(a: Point, b: Point)
    ensures Add(Sub(a, b), b) == a
    ensures Sub(Add(a, b), b) == a
    ensures Add(b, Sub(a, b)) == a
  {
  }

  lemma DistSqSymmetric(a: Point, b: Point)
    ensures DistSq(a, b) == DistSq(b, a)
  {
  }

  /** Pixel position (origin top-left, y downwards) to normalised device coordinates. */
  function PixelsToCoords(p: Point, vp: Point): (c: Point)
    requires vp.x != 0.0 && vp.y != 0.0
    ensures CoordsToPixels(c, vp) == p
  {
    Point(-1.0 + 2.0 * p.x / vp.x, 1.0 - 2.0 * p.y / vp.y)
  }

  /** Normalised device coordinates back to pixels. */
  function CoordsToPixels(c: Point, vp: Point): Point {
    Point(vp.x * (c.x + 1.0) / 2.0, vp.y * (1.0 - c.y) / 2.0)
  }

  /** The two conversions are mutually inverse for a viewport with nonzero sides. */
  lemma CoordsRoundTrip(p: Point, c: Point, vp: Point)
    requires vp.x != 0.0 && vp.y != 0.0
    ensures CoordsToPixels(PixelsToCoords(p, vp), vp) == p
    ensures PixelsToCoords(CoordsToPixels(c, vp), vp) == c
  {
  }

  /** The viewport's corners map to the corners of device space. */
  lemma CoordsCorners(vp: Point)
    requires vp.x != 0.0 && vp.y != 0.0
    ensures PixelsToCoords(Origin, vp) == Point(-1.0, 1.0)
    ensures PixelsToCoords(vp, vp) == Point(1.0, -1.0)
  {
    assert 2.0 * vp.x / vp.x == 2.0;
    assert 2.0 * vp.y / vp.y == 2.0;
  }
}

=== FILE: prims.dfy ===
/**
  The primitive kinds a polygon shape is drawn with, their model-space
  vertices and hit tests, and the placement records of the polygons.
  Model space is the square [-0.5, 0.5] x [-0.5, 0.5] centred on the origin.
 */
module Prims {
  import opened Points

  datatype PrimType = Triangle | Circle | Ring | Rect | Line

  /** The number of vertices on the outline of a ring. */
  const NCircleVerts: nat := 30

  /** `PrimType::size`: how many vertices the primitive is drawn with. */
  function Size(p: PrimType): nat {
    match p
    case Triangle => 3
    case Rect => 4
    case Circle => NCircleVerts + 1
    case Ring => NCircleVerts
    case Line => 1
  }

  /**
    `PrimType::verts`: the model vertices as a flat `x, y, x, y, ...` list.
    The ring's coordinates are cosines and sines; they are the parameter
    `ring`, and a circle is the centre followed by the ring.
   */
  function Verts(p: PrimType, ring: seq<real>): (v: seq<real>)
    requires |ring| == 2 * NCircleVerts
    ensures |v| == 2 * Size(p)
  {
    match p
    case Triangle => [-0.5, -0.5, 0.5, -0.5, 0.0, 0.5]
    case Circle => [0.0, 0.0] + ring
    case Ring => ring
    case Rect => [-0.5, -0.5, -0.5, 0.5, 0.5, 0.5, 0.5, -0.5]
    case Line => [0.0, 0.0]
  }

  /** The `i`-th vertex of a flat coordinate list. */
  function VertAt(v: seq<real>, i: nat): Point
    requires 2 * i + 1 < |v|
  {
    Point(v[2 * i], v[2 * i + 1])
  }

  /**
    `PrimType::in_bounds` in model space: the isosceles triangle with apex
    (0, 0.5) and base at y = -0.5, the disc of radius 0.5 (for both circle
    and ring), the full square, and nothing for a line.
   */
  predicate InBounds(p: PrimType, q: Point) {
    match p
    case Triangle => q.x >= -0.5 && q.x <= 0.5 && q.y >= -0.5 && q.y <= 0.5 - Abs(q.x)
    case Circle => MagSq(q) <= 0.25
    case Ring => MagSq(q) <= 0.25
    case Rect => q.x >= -0.5 && q.x <= 0.5 && q.y >= -0.5 && q.y <= 0.5
    case Line => false
  }

  /** The drawn vertices of the triangle and of the rect lie inside their own hit regions. */
  lemma ModelVertsInside(p: PrimType, ring: seq<real>)
    requires |ring| == 2 * NCircleVerts
    requires p == Triangle || p == Rect
    ensures forall i :: 0 <= i < Size(p) ==> InBounds(p, VertAt(Verts(p, ring), i))
  {
    var v := Verts(p, ring);
    forall i | 0 <= i < Size(p)
      ensures InBounds(p, VertAt(v, i))
    {
      if p == Triangle {
        assert i == 0 || i == 1 || i == 2;
      } else {
        assert i == 0 || i == 1 || i == 2 || i == 3;
      }
    }
  }

  /** The triangle's region lies inside the square's. */
  lemma TriangleWithinRect(q: Point)
    ensures InBounds(Triangle, q) ==> InBounds(Rect, q)
  {
  }

  /** The disc lies inside the square. */
  lemma CircleWithinRect(q: Point)
    ensures InBounds(Circle, q) ==> InBounds(Rect, q)
    ensures InBounds(Ring, q) == InBounds(Circle, q)
  {
    if MagSq(q) <= 0.25 {
      HalfBound(q.x, q.y);
      HalfBound(q.y, q.x);
    }
  }

  lemma HalfBound(u: real, w: real)
    requires u * u + w * w <= 0.25
    ensures -0.5 <= u <= 0.5
  {
    assert w * w >= 0.0;
  }

  /**
    A rotated rectangle: `offset` is the top-left corner before rotation,
    `size` the width and height, `rot` the rotation.
   */
  datatype RotateRect = RotateRect(offset: Point, size: Point, rot: real)

  /** `offset += off`, as a polygon shape moves when dragged. */
  function Translate(rr: RotateRect, off: Point): RotateRect {
    rr.(offset := Add(rr.offset, off))
  }

  /** A filled or outlined primitive placed by a rotated rectangle. */
  datatype DrawPolygon = DrawPolygon(prim: PrimType, fill: bool, rect: RotateRect)

  /**
    `ShapeBuilder::fill`: sets the fill flag and keeps the round primitives
    consistent with it; an outlined circle becomes a ring, a filled ring a
    circle, and every other primitive is left alone.
   */
  function Fill(p: DrawPolygon, fill: bool): (r: DrawPolygon)
    ensures r.fill == fill && r.rect == p.rect
    ensures p.prim == Circle || p.prim == Ring ==> r.prim == (if fill then Circle else Ring)
    ensures p.prim != Circle && p.prim != Ring ==> r.prim == p.prim
  {
    var prim1 := if p.prim == Circle && !fill then Ring else p.prim;
    var prim2 := if prim1 == Ring && fill then Circle else prim1;
    DrawPolygon(prim2, fill, p.rect)
  }

  /** Filling is idempotent, and the last call wins: re-filling an outlined circle restores it. */
  lemma FillIdempotent(p: DrawPolygon, a: bool, b: bool)
    ensures Fill(Fill(p, a), a) == Fill(p, a)
    ensures Fill(Fill(p, a), b) == Fill(p, b)
  {
  }

  /** Circle and ring share a hit region, so re-filling never changes where a polygon is hit. */
  lemma FillKeepsHitRegion(p: DrawPolygon, fill: bool, q: Point)
    ensures InBounds(Fill(p, fill).prim, q) == InBounds(p.prim, q)
  {
  }
}

=== FILE: rects.dfy ===
/**
  Axis-aligned rectangles stored as two corners `c1` and `c2`. Nothing forces
  `c1` to be the top-left corner: `Rect::in_bounds` normalises locally, while
  the accessors (`min_x` is `c1.x`, ...) and `verts` read the fields as they are.
 */
module Rects {
  import opened Points

  datatype Rect = Rect(c1: Point, c2: Point)

  /** `c1` is the top-left and `c2` the bottom-right corner (pixel y grows downwards). */
  predicate Normalized(r: Rect) {
    r.c1.x <= r.c2.x && r.c1.y <= r.c2.y
  }

  function Min(a: real, b: real): real {
    if a < b then a else b
  }

  function Max(a: real, b: real): real {
    if a < b then b else a
  }

  /** `Rect::width`: the absolute horizontal extent, whatever the corner order. */
  function Width(r: Rect): (w: real)
    ensures w >= 0.0
    ensures w == Max(r.c1.x, r.c2.x) - Min(r.c1.x, r.c2.x)
  {
    Abs(r.c2.x - r.c1.x)
  }

  /** `Rect::height`. */
  function Height(r: Rect): (h: real)
    ensures h >= 0.0
    ensures h == Max(r.c1.y, r.c2.y) - Min(r.c1.y, r.c2.y)
  {
    Abs(r.c2.y - r.c1.y)
  }

  /** `Rect::center`: the midpoint of the corners, inside the rect whatever the corner order. */
  function Center(r: Rect): (c: Point)
    ensures Add(c, c) == Add(r.c1, r.c2)
    ensures InBounds(r, c)
  {
    Div(Add(r.c1, r.c2), 2.0)
  }

  /** The four corners clockwise from `c1`, read through the unnormalised accessors. */
  function Verts(r: Rect): (vs: seq<Point>)
    ensures |vs| == 4
    ensures vs[0] == r.c1 && vs[2] == r.c2
    ensures vs[1] == Point(r.c2.x, r.c1.y) && vs[3] == Point(r.c1.x, r.c2.y)
  {
    [r.c1, Point(r.c2.x, r.c1.y), r.c2, Point(r.c1.x, r.c2.y)]
  }

  /** `Rect::drag`: both corners move by `off`. */
  function Drag(r: Rect, off: Point): Rect {
    Rect(Add(r.c1, off), Add(r.c2, off))
  }

  /**
    `Rect::in_bounds`: the stored corners are ordered locally on each axis
    (the first one wins only when strictly smaller), then the point is tested
    against the closed box.
   */
  predicate InBounds(r: Rect, p: Point) {
    var minX := if r.c1.x < r.c2.x then r.c1.x else r.c2.x;
    var maxX := if r.c1.x < r.c2.x then r.c2.x else r.c1.x;
    var minY := if r.c1.y < r.c2.y then r.c1.y else r.c2.y;
    var maxY := if r.c1.y < r.c2.y then r.c2.y else r.c1.y;
    p.x >= minX && p.x <= maxX && p.y >= minY && p.y <= maxY
  }

  /** For a normalised rect, the closed box between `c1` and `c2`. */
  predicate Contains(r: Rect, p: Point) {
    r.c1.x <= p.x <= r.c2.x && r.c1.y <= p.y <= r.c2.y
  }

  /** `in_bounds` is the closed box between the componentwise minimum and maximum of the corners. */
  lemma InBoundsIsMinMaxBox(r: Rect, p: Point)
    ensures InBounds(r, p) <==>
      Min(r.c1.x, r.c2.x) <= p.x <= Max(r.c1.x, r.c2.x) && Min(r.c1.y, r.c2.y) <= p.y <= Max(r.c1.y, r.c2.y)
  {
  }

  /** For a normalised rect, `in_bounds` is plain containment. */
  lemma InBoundsNormalized(r: Rect, p: Point)
    requires Normalized(r)
    ensures InBounds(r, p) <==> Contains(r, p)
  {
  }

  /** Swapping the stored corners, or only their coordinates on one axis, leaves `in_bounds` unchanged. */
  lemma InBoundsCornerOrderIrrelevant(r: Rect, p: Point)
    ensures InBounds(Rect(r.c2, r.c1), p) == InBounds(r, p)
    ensures InBounds(Rect(Point(r.c2.x, r.c1.y), Point(r.c1.x, r.c2.y)), p) == InBounds(r, p)
    ensures InBounds(Rect(Point(r.c1.x, r.c2.y), Point(r.c2.x, r.c1.y)), p) == InBounds(r, p)
  {
  }

  /** Dragging a rect translates its hit region: `p` is inside the moved rect exactly when `p - off` was inside the original. */
  lemma DragTranslatesInBounds(r: Rect, off: Point, p: Point)
    ensures InBounds(Drag(r, off), p) == InBounds(r, Sub(p, off))
    ensures Width(Drag(r, off)) == Width(r) && Height(Drag(r, off)) == Height(r)
  {
  }

  /** Every point of `pts` lies in the closed box of `r`. */
  predicate Spans(r: Rect, pts: seq<Point>) {
    forall i :: 0 <= i < |pts| ==> Contains(r, pts[i])
  }

  /** `v` is the x (`onX`) or y coordinate of `lo` or of some point of `pts`. */
  predicate Attained(v: real, onX: bool, lo: Point, pts: seq<Point>) {
    (if onX then v == lo.x else v == lo.y) ||
    exists i :: 0 <= i < |pts| && (if onX then v == pts[i].x else v == pts[i].y)
  }

  /**
    The loop of `Rect::bounding_box` over the remaining points, with `lo` and
    `hi` the running minimum and maximum corners.
   */
  function Scan(pts: seq<Point>, lo: Point, hi: Point): (r: Rect)
    requires lo.x <= hi.x && lo.y <= hi.y
    ensures Normalized(r)
    ensures r.c1.x <= lo.x && r.c1.y <= lo.y && r.c2.x >= hi.x && r.c2.y >= hi.y
    ensures Spans(r, pts)
    ensures Attained(r.c1.x, true, lo, pts) && Attained(r.c1.y, false, lo, pts)
    ensures Attained(r.c2.x, true, hi, pts) && Attained(r.c2.y, false, hi, pts)
    decreases |pts|
  {
    if |pts| == 0 then Rect(lo, hi)
    else
      var p := pts[0];
      var lo' := Point(if p.x < lo.x then p.x else lo.x, if p.y < lo.y then p.y else lo.y);
      var hi' := Point(if p.x > hi.x then p.x else hi.x, if p.y > hi.y then p.y else hi.y);
      var r := Scan(pts[1..], lo', hi');
      AttainedStep(r.c1.x, true, lo, lo', pts);
      AttainedStep(r.c1.y, false, lo, lo', pts);
      AttainedStep(r.c2.x, true, hi, hi', pts);
      AttainedStep(r.c2.y, false, hi, hi', pts);
      assert Contains(r, pts[0]);
      r
  }

  lemma AttainedStep(v: real, onX: bool, lo: Point, lo': Point, pts: seq<Point>)
    requires |pts| > 0
    requires if onX then lo'.x == lo.x || lo'.x == pts[0].x else lo'.y == lo.y || lo'.y == pts[0].y
    requires Attained(v, onX, lo', pts[1..])
    ensures Attained(v, onX, lo, pts)
  {
    if (if onX then v == lo'.x else v == lo'.y) {
      if onX && v != lo.x {
        assert v == pts[0].x;
      } else if !onX && v != lo.y {
        assert v == pts[0].y;
      }
    } else {
      var i :| 0 <= i < |pts[1..]| && (if onX then v == pts[1..][i].x else v == pts[1..][i].y);
      assert pts[1..][i] == pts[i + 1];
    }
  }

  /**
    `Rect::bounding_box`: the zero rect for no points; otherwise the tightest
    normalised rect around them. Each bound is the coordinate of some point,
    and every point lies inside.
   */
  function BoundingBox(pts: seq<Point>): (r: Rect)
    ensures |pts| == 0 ==> r == Rect(Origin, Origin)
    ensures Normalized(r)
    ensures forall i :: 0 <= i < |pts| ==> Contains(r, pts[i]) && InBounds(r, pts[i])
    ensures |pts| > 0 ==> exists i :: 0 <= i < |pts| && r.c1.x == pts[i].x
    ensures |pts| > 0 ==> exists i :: 0 <= i < |pts| && r.c1.y == pts[i].y
    ensures |pts| > 0 ==> exists i :: 0 <= i < |pts| && r.c2.x == pts[i].x
    ensures |pts| > 0 ==> exists i :: 0 <= i < |pts| && r.c2.y == pts[i].y
  {
    if |pts| == 0 then Rect(Origin, Origin)
    else
      var r := Scan(pts, pts[0], pts[0]);
      assert Spans(r, pts);
      assert forall i :: 0 <= i < |pts| ==> InBounds(r, pts[i]) by {
        forall i | 0 <= i < |pts| ensures InBounds(r, pts[i]) {
          InBoundsNormalized(r, pts[i]);
        }
      }
      r
  }

  /**
    The four corners are the box's own: each lies in it, and consecutive
    corners, the last wrapping to the first, share a side.
   */
  lemma VertsOnRect(r: Rect)
    ensures forall i :: 0 <= i < 4 ==> InBounds(r, Verts(r)[i])
    ensures Verts(r)[0].y == Verts(r)[1].y && Verts(r)[1].x == Verts(r)[2].x
    ensures Verts(r)[2].y == Verts(r)[3].y && Verts(r)[3].x == Verts(r)[0].x
  {
  }

  /** For a normalised rect, the bounding box of its four corners is the rect again. */
  lemma VertsSpanRect(r: Rect)
    requires Normalized(r)
    ensures BoundingBox(Verts(r)) == r
  {
    var vs := Verts(r);
    var b := BoundingBox(vs);
    assert Contains(b, vs[0]) && Contains(b, vs[2]);
    var i :| 0 <= i < 4 && b.c1.x == vs[i].x;
    var j :| 0 <= j < 4 && b.c1.y == vs[j].y;
    var k :| 0 <= k < 4 && b.c2.x == vs[k].x;
    var m :| 0 <= m < 4 && b.c2.y == vs[m].y;
  }

  /** `Rect::new(a, b)`: the normalised rect with `a` and `b` as opposite corners. */
  function New(a: Point, b: Point): (r: Rect)
    ensures r.c1 == Point(Min(a.x, b.x), Min(a.y, b.y))
    ensures r.c2 == Point(Max(a.x, b.x), Max(a.y, b.y))
    ensures Normalized(r)
  {
    var r := BoundingBox([a, b]);
    BoundsOfTwo(a, b, r);
    r
  }

  lemma BoundsOfTwo(a: Point, b: Point, r: Rect)
    requires r == BoundingBox([a, b])
    ensures r.c1 == Point(Min(a.x, b.x), Min(a.y, b.y))
    ensures r.c2 == Point(Max(a.x, b.x), Max(a.y, b.y))
  {
    var pts := [a, b];
    assert Contains(r, pts[0]) && Contains(r, pts[1]);
    var i1 :| 0 <= i1 < |pts| && r.c1.x == pts[i1].x;
    var i2 :| 0 <= i2 < |pts| && r.c1.y == pts[i2].y;
    var i3 :| 0 <= i3 < |pts| && r.c2.x == pts[i3].x;
    var i4 :| 0 <= i4 < |pts| && r.c2.y == pts[i4].y;
  }

  /** Two equal corners give the degenerate rect at that point. */
  lemma NewSinglePoint(p: Point)
    ensures New(p, p) == Rect(p, p)
    ensures New(p, p).c1 == New(p, p).c2
  {
  }
}

=== FILE: select_box.dfy ===
/**
  The selection box drawn around a selected shape, `ShapeSelectBox`: its
  eight resize handles, what dragging a handle does to the box (including
  the flip to the opposite handle when an edge is dragged past the other
  one), and the search for the handle under the pointer.
 */
module SelectBox {
  import opened Options
  import opened Points
  import opened Rects

  /** The eight handles, in the order of their discriminants 0..7. */
  datatype DragVertex = TopLeft | TopRight | BottomRight | BottomLeft | TopCenter | Right | BottomCenter | Left

  function Index(v: DragVertex): nat {
    match v
    case TopLeft => 0
    case TopRight => 1
    case BottomRight => 2
    case BottomLeft => 3
    case TopCenter => 4
    case Right => 5
    case BottomCenter => 6
    case Left => 7
  }

  /** `FromPrimitive::from_usize`: the handle with discriminant `i`, if there is one. */
  function FromIndex(i: nat): (v: Option<DragVertex>)
    ensures v.Some? <==> i < 8
    ensures v.Some? ==> Index(v.value) == i
  {
    if i == 0 then Some(TopLeft)
    else if i == 1 then Some(TopRight)
    else if i == 2 then Some(BottomRight)
    else if i == 3 then Some(BottomLeft)
    else if i == 4 then Some(TopCenter)
    else if i == 5 then Some(Right)
    else if i == 6 then Some(BottomCenter)
    else if i == 7 then Some(Left)
    else None
  }

  /** The discriminant conversion is a bijection between the handles and 0..7. */
  lemma IndexRoundTrip(v: DragVertex, i: nat)
    ensures FromIndex(Index(v)) == Some(v)
    ensures Index(v) < 8
    ensures FromIndex(i).Some? ==> (FromIndex(i).value == v <==> Index(v) == i)
  {
  }

  predicate IsCorner(v: DragVertex) {
    Index(v) < 4
  }

  /** The system cursors the editor shows. */
  datatype Cursor = Arrow | Hand | Crosshair | SizeNESW | SizeNS | SizeNWSE | SizeWE

  /** `get_drag_hover_cursor`: the resize arrow matching a handle's direction. */
  function HoverCursor(v: DragVertex): (c: Cursor)
    ensures c == SizeWE <==> v == Left || v == Right
    ensures c == SizeNS <==> v == TopCenter || v == BottomCenter
    ensures c == SizeNWSE <==> v == TopLeft || v == BottomRight
    ensures c == SizeNESW <==> v == TopRight || v == BottomLeft
  {
    match v
    case Left | Right => SizeWE
    case TopCenter | BottomCenter => SizeNS
    case TopLeft | BottomRight => SizeNWSE
    case TopRight | BottomLeft => SizeNESW
  }

  /** The handle across the box, which a drag hands over to when it crosses the fixed edge. */
  function Opposite(v: DragVertex): DragVertex {
    match v
    case TopLeft => BottomRight
    case BottomRight => TopLeft
    case TopRight => BottomLeft
    case BottomLeft => TopRight
    case TopCenter => BottomCenter
    case BottomCenter => TopCenter
    case Left => Right
    case Right => Left
  }

  /** Opposite handles pair up, are distinct, and share a cursor. */
  lemma OppositeInvolution(v: DragVertex)
    ensures Opposite(Opposite(v)) == v
    ensures Opposite(v) != v
    ensures HoverCursor(Opposite(v)) == HoverCursor(v)
    ensures IsCorner(Opposite(v)) == IsCorner(v)
  {
  }

  /** `ShapeSelectBox::MIN_CORNER_DIST`: the handle radius and the hover padding, in pixels. */
  const MinCornerDist: real := 10.0

  /** The moving bound, the fixed bound, and the handle being dragged after one axis update. */
  datatype Swap = Swap(start: real, minMax: real, vertex: DragVertex)

  /** The moving bound was below the fixed one and is dragged above it, or the reverse. */
  predicate Crosses(start: real, minMax: real, target: real) {
    if start < minMax then target > minMax else target < minMax
  }

  /**
    `drag_side_swap_vertex`: the moving bound `start` takes the value `target`;
    when that crosses the fixed bound `minMax` the two are exchanged and the
    drag continues with `vertex2`, otherwise with `vertex1`.
   */
  function SwapVertex(vertex1: DragVertex, vertex2: DragVertex, start: real, minMax: real, target: real): (s: Swap)
    ensures (s.start == target && s.minMax == minMax) || (s.start == minMax && s.minMax == target)
    ensures start < minMax ==> s.start <= s.minMax
    ensures start >= minMax ==> s.start >= s.minMax
    ensures s.vertex == vertex1 || s.vertex == vertex2
    ensures vertex1 != vertex2 ==> (s.vertex == vertex2 <==> s.minMax != minMax)
  {
    if start < minMax then
      if target > minMax then Swap(minMax, target, vertex2) else Swap(target, minMax, vertex1)
    else
      if target < minMax then Swap(minMax, target, vertex2) else Swap(target, minMax, vertex1)
  }

  /** The handle changes exactly when the target value crosses the fixed bound. */
  lemma SwapVertexCrossing(vertex1: DragVertex, vertex2: DragVertex, start: real, minMax: real, target: real)
    requires vertex1 != vertex2
    ensures SwapVertex(vertex1, vertex2, start, minMax, target).vertex == vertex2 <==> Crosses(start, minMax, target)
    ensures !Crosses(start, minMax, target) ==> SwapVertex(vertex1, vertex2, start, minMax, target).start == target
  {
  }

  /**
    How far a corner drag moves the dragged x edge, counted towards the
    fixed edge for the top corners and away from it for the bottom ones.
   */
  function CornerShift(r: Rect, v: DragVertex, p: Point): real
    requires IsCorner(v)
  {
    match v
    case TopLeft => p.x - r.c1.x
    case TopRight => r.c2.x - p.x
    case BottomRight => p.x - r.c2.x
    case BottomLeft => r.c1.x - p.x
  }

  /** The matching vertical move of a corner drag: the x shift scaled by the box's aspect ratio. */
  function Rise(r: Rect, v: DragVertex, p: Point): (k: real)
    requires IsCorner(v) && Width(r) != 0.0
    ensures k * Width(r) == CornerShift(r, v, p) * Height(r)
  {
    CornerShift(r, v, p) * Height(r) / Width(r)
  }

  /** A resized box and the handle the drag continues with. */
  datatype Resized = Resized(rect: Rect, vertex: DragVertex)

  /**
    `ShapeSelectBox::drag_side`: a side handle moves one edge to the
    pointer's coordinate. A corner handle moves its x edge to the pointer's x
    and its y edge by the box's aspect ratio (taken from the box before the
    drag); the handle returned is the one from the y-axis update.
   */
  function DragSide(r: Rect, v: DragVertex, p: Point): (res: Resized)
    requires IsCorner(v) ==> Width(r) != 0.0
    ensures res.vertex == v || res.vertex == Opposite(v)
    ensures HoverCursor(res.vertex) == HoverCursor(v)
    ensures v == Left || v == Right ==> res.rect.c1.y == r.c1.y && res.rect.c2.y == r.c2.y
    ensures v == TopCenter || v == BottomCenter ==> res.rect.c1.x == r.c1.x && res.rect.c2.x == r.c2.x
  {
    match v
    case TopCenter =>
      var s := SwapVertex(v, BottomCenter, r.c1.y, r.c2.y, p.y);
      Resized(Rect(Point(r.c1.x, s.start), Point(r.c2.x, s.minMax)), s.vertex)
    case BottomCenter =>
      var s := SwapVertex(v, TopCenter, r.c2.y, r.c1.y, p.y);
      Resized(Rect(Point(r.c1.x, s.minMax), Point(r.c2.x, s.start)), s.vertex)
    case Left =>
      var s := SwapVertex(v, Right, r.c1.x, r.c2.x, p.x);
      Resized(Rect(Point(s.start, r.c1.y), Point(s.minMax, r.c2.y)), s.vertex)
    case Right =>
      var s := SwapVertex(v, Left, r.c2.x, r.c1.x, p.x);
      Resized(Rect(Point(s.minMax, r.c1.y), Point(s.start, r.c2.y)), s.vertex)
    case TopLeft =>
      var y := r.c1.y + Rise(r, v, p);
      var sx := SwapVertex(v, BottomRight, r.c1.x, r.c2.x, p.x);
      var sy := SwapVertex(v, BottomRight, r.c1.y, r.c2.y, y);
      Resized(Rect(Point(sx.start, sy.start), Point(sx.minMax, sy.minMax)), sy.vertex)
    case BottomRight =>
      var y := r.c2.y + Rise(r, v, p);
      var sx := SwapVertex(v, TopLeft, r.c2.x, r.c1.x, p.x);
      var sy := SwapVertex(v, TopLeft, r.c2.y, r.c1.y, y);
      Resized(Rect(Point(sx.minMax, sy.minMax), Point(sx.start, sy.start)), sy.vertex)
    case TopRight =>
      var y := r.c1.y + Rise(r, v, p);
      var sx := SwapVertex(v, BottomLeft, r.c2.x, r.c1.x, p.x);
      var sy := SwapVertex(v, BottomLeft, r.c1.y, r.c2.y, y);
      Resized(Rect(Point(sx.minMax, sy.start), Point(sx.start, sy.minMax)), sy.vertex)
    case BottomLeft =>
      var y := r.c2.y + Rise(r, v, p);
      var sx := SwapVertex(v, TopRight, r.c1.x, r.c2.x, p.x);
      var sy := SwapVertex(v, TopRight, r.c2.y, r.c1.y, y);
      Resized(Rect(Point(sx.start, sy.minMax), Point(sx.minMax, sy.start)), sy.vertex)
  }

  /** The y bound a corner drag moves and the one it keeps, before the drag. */
  function CornerYBounds(r: Rect, v: DragVertex): (real, real)
    requires IsCorner(v)
  {
    if v == TopLeft || v == TopRight then (r.c1.y, r.c2.y) else (r.c2.y, r.c1.y)
  }

  /**
    For a corner the handle returned is decided by the y axis alone: the
    drag continues with the opposite corner exactly when the corner's new y
    crosses the fixed y bound, whatever happened on the x axis.
   */
  lemma CornerHandleFollowsY(r: Rect, v: DragVertex, p: Point)
    requires IsCorner(v) && Width(r) != 0.0
    ensures var (moving, fixed) := CornerYBounds(r, v);
      DragSide(r, v, p).vertex == Opposite(v) <==> Crosses(moving, fixed, moving + Rise(r, v, p))
  {
    var (moving, fixed) := CornerYBounds(r, v);
    var y := moving + Rise(r, v, p);
    SwapVertexCrossing(v, Opposite(v), moving, fixed, y);
  }

  /**
    The x-axis swap of a corner drag is forgotten: dragging the top-left
    corner of the flat box (0,0)-(10,0) to (20,0) swaps its x bounds, giving
    (10,0)-(20,0), yet the drag continues with the top-left handle, now on
    the box's right side.
   */
  lemma CornerXSwapIgnored()
    ensures var res := DragSide(Rect(Point(0.0, 0.0), Point(10.0, 0.0)), TopLeft, Point(20.0, 0.0));
      res.rect == Rect(Point(10.0, 0.0), Point(20.0, 0.0)) && res.vertex == TopLeft
  {
    var r := Rect(Point(0.0, 0.0), Point(10.0, 0.0));
    assert Rise(r, TopLeft, Point(20.0, 0.0)) == 0.0;
  }

  /**
    A corner drag of a box with no width, as it is evidently meant: there is
    no aspect ratio to scale by, so the corner follows the pointer on both
    axes, each axis swapping as `drag_side_swap_vertex` does.
   */
  function FreeCorner(r: Rect, v: DragVertex, p: Point): Resized
    requires IsCorner(v)
  {
    match v
    case TopLeft =>
      var sx := SwapVertex(v, BottomRight, r.c1.x, r.c2.x, p.x);
      var sy := SwapVertex(v, BottomRight, r.c1.y, r.c2.y, p.y);
      Resized(Rect(Point(sx.start, sy.start), Point(sx.minMax, sy.minMax)), sy.vertex)
    case BottomRight =>
      var sx := SwapVertex(v, TopLeft, r.c2.x, r.c1.x, p.x);
      var sy := SwapVertex(v, TopLeft, r.c2.y, r.c1.y, p.y);
      Resized(Rect(Point(sx.minMax, sy.minMax), Point(sx.start, sy.start)), sy.vertex)
    case TopRight =>
      var sx := SwapVertex(v, BottomLeft, r.c2.x, r.c1.x, p.x);
      var sy := SwapVertex(v, BottomLeft, r.c1.y, r.c2.y, p.y);
      Resized(Rect(Point(sx.minMax, sy.start), Point(sx.start, sy.minMax)), sy.vertex)
    case BottomLeft =>
      var sx := SwapVertex(v, TopRight, r.c1.x, r.c2.x, p.x);
      var sy := SwapVertex(v, TopRight, r.c2.y, r.c1.y, p.y);
      Resized(Rect(Point(sx.start, sy.minMax), Point(sx.minMax, sy.start)), sy.vertex)
  }

  /**
    `drag_side` with the zero-width corner case guarded: defined for every
    box, handle and pointer, and equal to `drag_side` wherever that divides
    by a nonzero width.
   */
  function GuardedDragSide(r: Rect, v: DragVertex, p: Point): (res: Resized)
    ensures !IsCorner(v) || Width(r) != 0.0 ==> res == DragSide(r, v, p)
    ensures res.vertex == v || res.vertex == Opposite(v)
  {
    if IsCorner(v) && Width(r) == 0.0 then FreeCorner(r, v, p) else DragSide(r, v, p)
  }

  /** The x bound a corner drag keeps. */
  function CornerFixedX(r: Rect, v: DragVertex): real
    requires IsCorner(v)
  {
    if v == TopLeft || v == BottomLeft then r.c2.x else r.c1.x
  }

  /**
    On a box with no width, the guarded corner drag puts the box between
    the pointer and the fixed corner: its x bounds are the pointer's x and
    the fixed x, and its y bounds the pointer's y and the fixed y.
   */
  lemma GuardedCornerFollowsPointer(r: Rect, v: DragVertex, p: Point)
    requires IsCorner(v) && Width(r) == 0.0
    ensures var r' := GuardedDragSide(r, v, p).rect;
      var fx, fy := CornerFixedX(r, v), CornerYBounds(r, v).1;
      && ((r'.c1.x == p.x && r'.c2.x == fx) || (r'.c1.x == fx && r'.c2.x == p.x))
      && ((r'.c1.y == p.y && r'.c2.y == fy) || (r'.c1.y == fy && r'.c2.y == p.y))
  {
  }

  /** The edge a side handle moves, as the x (`onX`) or y coordinate of `c1` (`first`) or `c2`. */
  function SideEdge(v: DragVertex): (e: (bool, bool))
    requires !IsCorner(v)
  {
    match v
    case Left => (true, true)
    case Right => (true, false)
    case TopCenter => (false, true)
    case BottomCenter => (false, false)
  }

  function Coord(r: Rect, onX: bool, first: bool): real {
    var c := if first then r.c1 else r.c2;
    if onX then c.x else c.y
  }

  /**
    A side drag puts the dragged edge at the pointer and leaves the opposite
    edge where it was; when the pointer crosses that edge the two swap
    places and the drag continues with the opposite handle.
   */
  lemma DragSideMovesEdge(r: Rect, v: DragVertex, p: Point)
    requires !IsCorner(v)
    ensures var (onX, first) := SideEdge(v);
      var res := DragSide(r, v, p);
      var pc := if onX then p.x else p.y;
      var moving, fixed := Coord(r, onX, first), Coord(r, onX, !first);
      && (res.vertex == v ==> Coord(res.rect, onX, first) == pc && Coord(res.rect, onX, !first) == fixed)
      && (res.vertex != v ==> Coord(res.rect, onX, first) == fixed && Coord(res.rect, onX, !first) == pc)
      && (res.vertex != v <==> Crosses(moving, fixed, pc))
  {
  }

  /**
    Dragging keeps a normalised box normalised: always for the right and
    bottom handles, for the left and top handles when the box has extent on
    that axis, and for the corners when it has width (the corners need that
    anyway to scale by the aspect ratio).
   */
  lemma DragSideKeepsNormalized(r: Rect, v: DragVertex, p: Point)
    requires Normalized(r)
    requires v == Left || IsCorner(v) ==> Width(r) > 0.0
    requires v == TopCenter ==> Height(r) > 0.0
    ensures Normalized(DragSide(r, v, p).rect)
  {
    if IsCorner(v) && Height(r) == 0.0 {
      assert CornerShift(r, v, p) * Height(r) / Width(r) == 0.0;
    }
  }

  /** Dragging the left edge of a zero-width box to the left turns it inside out. */
  lemma DragLeftOfFlatBoxInverts()
    ensures var r := Rect(Point(10.0, 0.0), Point(10.0, 5.0));
      var res := DragSide(r, Left, Point(4.0, 2.0));
      Normalized(r) && !Normalized(res.rect) && res.vertex == Right
  {
  }

  /** Whichever way the bounds end up ordered, one axis update leaves them `|minMax - target|` apart. */
  lemma SwapExtent(vertex1: DragVertex, vertex2: DragVertex, start: real, minMax: real, target: real)
    ensures var s := SwapVertex(vertex1, vertex2, start, minMax, target);
      Abs(s.minMax - s.start) == Abs(minMax - target) && Abs(s.start - s.minMax) == Abs(minMax - target)
  {
  }

  /** The extents after a corner drag: the x edge moves by the shift, the y edge by the shift scaled by the aspect ratio. */
  lemma CornerExtents(r: Rect, v: DragVertex, p: Point)
    requires Normalized(r) && Width(r) > 0.0 && IsCorner(v)
    ensures var r' := DragSide(r, v, p).rect;
      if v == TopLeft || v == TopRight
      then Width(r') == Abs(Width(r) - CornerShift(r, v, p)) && Height(r') == Abs(Height(r) - Rise(r, v, p))
      else Width(r') == Abs(Width(r) + CornerShift(r, v, p)) && Height(r') == Abs(Height(r) + Rise(r, v, p))
  {
    var k := Rise(r, v, p);
    var r' := DragSide(r, v, p).rect;
    match v
    case TopLeft =>
      var sx := SwapVertex(v, BottomRight, r.c1.x, r.c2.x, p.x);
      var sy := SwapVertex(v, BottomRight, r.c1.y, r.c2.y, r.c1.y + k);
      assert r' == Rect(Point(sx.start, sy.start), Point(sx.minMax, sy.minMax));
      SwapExtent(v, BottomRight, r.c1.x, r.c2.x, p.x);
      SwapExtent(v, BottomRight, r.c1.y, r.c2.y, r.c1.y + k);
    case BottomRight =>
      var sx := SwapVertex(v, TopLeft, r.c2.x, r.c1.x, p.x);
      var sy := SwapVertex(v, TopLeft, r.c2.y, r.c1.y, r.c2.y + k);
      assert r' == Rect(Point(sx.minMax, sy.minMax), Point(sx.start, sy.start));
      SwapExtent(v, TopLeft, r.c2.x, r.c1.x, p.x);
      SwapExtent(v, TopLeft, r.c2.y, r.c1.y, r.c2.y + k);
    case TopRight =>
      var sx := SwapVertex(v, BottomLeft, r.c2.x, r.c1.x, p.x);
      var sy := SwapVertex(v, BottomLeft, r.c1.y, r.c2.y, r.c1.y + k);
      assert r' == Rect(Point(sx.minMax, sy.start), Point(sx.start, sy.minMax));
      SwapExtent(v, BottomLeft, r.c2.x, r.c1.x, p.x);
      SwapExtent(v, BottomLeft, r.c1.y, r.c2.y, r.c1.y + k);
    case BottomLeft =>
      var sx := SwapVertex(v, TopRight, r.c1.x, r.c2.x, p.x);
      var sy := SwapVertex(v, TopRight, r.c2.y, r.c1.y, r.c2.y + k);
      assert r' == Rect(Point(sx.start, sy.minMax), Point(sx.minMax, sy.start));
      SwapExtent(v, TopRight, r.c1.x, r.c2.x, p.x);
      SwapExtent(v, TopRight, r.c2.y, r.c1.y, r.c2.y + k);
  }

  /** `r'` has the proportions of `r`. */
  predicate SameAspect(r: Rect, r': Rect) {
    Height(r') * Width(r) == Height(r) * Width(r')
  }

  /**
    A corner drag of a normalised box with width keeps its aspect ratio, even
    when the drag crosses the opposite corner.
   */
  lemma CornerDragKeepsAspect(r: Rect, v: DragVertex, p: Point)
    requires Normalized(r) && Width(r) > 0.0 && IsCorner(v)
    ensures SameAspect(r, DragSide(r, v, p).rect)
  {
    match v
    case TopLeft => TopLeftKeepsAspect(r, p);
    case TopRight => TopRightKeepsAspect(r, p);
    case BottomRight => BottomRightKeepsAspect(r, p);
    case BottomLeft => BottomLeftKeepsAspect(r, p);
  }

  lemma TopLeftKeepsAspect(r: Rect, p: Point)
    requires Normalized(r) && Width(r) > 0.0
    ensures SameAspect(r, DragSide(r, TopLeft, p).rect)
  {
    var r' := DragSide(r, TopLeft, p).rect;
    CornerExtents(r, TopLeft, p);
    var w, h, e, k, w', h' := Width(r), Height(r), CornerShift(r, TopLeft, p), Rise(r, TopLeft, p), Width(r'), Height(r');
    ScaledExtents(w, h, e, k, w', h', true);
  }

  lemma TopRightKeepsAspect(r: Rect, p: Point)
    requires Normalized(r) && Width(r) > 0.0
    ensures SameAspect(r, DragSide(r, TopRight, p).rect)
  {
    var r' := DragSide(r, TopRight, p).rect;
    CornerExtents(r, TopRight, p);
    var w, h, e, k, w', h' := Width(r), Height(r), CornerShift(r, TopRight, p), Rise(r, TopRight, p), Width(r'), Height(r');
    ScaledExtents(w, h, e, k, w', h', true);
  }

  lemma BottomRightKeepsAspect(r: Rect, p: Point)
    requires Normalized(r) && Width(r) > 0.0
    ensures SameAspect(r, DragSide(r, BottomRight, p).rect)
  {
    var r' := DragSide(r, BottomRight, p).rect;
    CornerExtents(r, BottomRight, p);
    var w, h, e, k, w', h' := Width(r), Height(r), CornerShift(r, BottomRight, p), Rise(r, BottomRight, p), Width(r'), Height(r');
    ScaledExtents(w, h, e, k, w', h', false);
  }

  lemma BottomLeftKeepsAspect(r: Rect, p: Point)
    requires Normalized(r) && Width(r) > 0.0
    ensures SameAspect(r, DragSide(r, BottomLeft, p).rect)
  {
    var r' := DragSide(r, BottomLeft, p).rect;
    CornerExtents(r, BottomLeft, p);
    var w, h, e, k, w', h' := Width(r), Height(r), CornerShift(r, BottomLeft, p), Rise(r, BottomLeft, p), Width(r'), Height(r');
    ScaledExtents(w, h, e, k, w', h', false);
  }

  /**
    Moving one side of a `w` by `h` box by `d` and the other by
    `k = d * h / w`, both inwards or both outwards, scales both extents by
    the same factor.
   */
  lemma ScaledExtents(w: real, h: real, d: real, k: real, w': real, h': real, inwards: bool)
    requires w > 0.0 && h >= 0.0 && k * w == d * h
    requires inwards ==> w' == Abs(w - d) && h' == Abs(h - k)
    requires !inwards ==> w' == Abs(w + d) && h' == Abs(h + k)
    ensures h' * w == h * w'
  {
    if inwards {
      ScaledOffset(w, h, d, k, w', h');
    } else {
      ScaledOffset(w, h, -d, -k, w', h');
    }
  }

  lemma ScaledOffset(w: real, h: real, d: real, k: real, w': real, h': real)
    requires w > 0.0 && h >= 0.0 && k * w == d * h
    requires w' == Abs(w - d) && h' == Abs(h - k)
    ensures h' * w == h * w'
  {
    assert (h - k) * w == h * (w - d);
    if w - d >= 0.0 {
      assert h * (w - d) >= 0.0;
      assert h - k >= 0.0;
    } else {
      assert h * (w - d) <= 0.0;
      assert h - k <= 0.0;
    }
  }

  /**
    The box 100 wide and 50 high with its top-left at (50, 50): dragging its
    right handle to x = 180 widens it; dragging on to x = 30 crosses the left
    edge, so the box spans 30..50 and the drag continues with the left handle.
   */
  lemma RightHandleCrossesLeftEdge()
    ensures var r := Rect(Point(50.0, 50.0), Point(150.0, 100.0));
      var a := DragSide(r, Right, Point(180.0, 70.0));
      var b := DragSide(a.rect, a.vertex, Point(30.0, 70.0));
      && a == Resized(Rect(Point(50.0, 50.0), Point(180.0, 100.0)), Right)
      && b == Resized(Rect(Point(30.0, 50.0), Point(50.0, 100.0)), Left)
  {
  }

  /** Where a handle sits: the corners of the box as stored, and the midpoints of its edges. */
  function HandlePos(r: Rect, v: DragVertex): Point {
    var tl, tr, br, bl := r.c1, Point(r.c2.x, r.c1.y), r.c2, Point(r.c1.x, r.c2.y);
    match v
    case TopLeft => tl
    case TopRight => tr
    case BottomRight => br
    case BottomLeft => bl
    case TopCenter => Div(Add(tl, tr), 2.0)
    case Right => Div(Add(tr, br), 2.0)
    case BottomCenter => Div(Add(br, bl), 2.0)
    case Left => Div(Add(bl, tl), 2.0)
  }

  /** `get_drag_points`: the rect's four vertices followed by the midpoints of consecutive ones. */
  function DragPoints(r: Rect): (pts: seq<Point>)
    ensures |pts| == 8
    ensures forall v :: pts[Index(v)] == HandlePos(r, v)
  {
    var vs := Verts(r);
    vs + [Div(Add(vs[0], vs[1]), 2.0), Div(Add(vs[1], vs[2]), 2.0),
          Div(Add(vs[2], vs[3]), 2.0), Div(Add(vs[3], vs[0]), 2.0)]
  }

  /**
    `(p.dist(pt) as u32) < MIN_CORNER_DIST`: the cast truncates a
    nonnegative distance, so this holds exactly when the distance is below
    10, compared here through squares.
   */
  predicate Near(a: Point, p: Point) {
    DistSq(a, p) < MinCornerDist * MinCornerDist
  }

  /** The first index at or after `i` whose point is near `p`. */
  function FindNear(pts: seq<Point>, p: Point, i: nat): (r: Option<nat>)
    requires i <= |pts|
    ensures r.Some? ==> i <= r.value < |pts| && Near(pts[r.value], p)
    ensures r.Some? ==> forall k :: i <= k < r.value ==> !Near(pts[k], p)
    ensures r.None? ==> forall k :: i <= k < |pts| ==> !Near(pts[k], p)
    decreases |pts| - i
  {
    if i == |pts| then None
    else if Near(pts[i], p) then Some(i)
    else FindNear(pts, p, i + 1)
  }

  /**
    `get_drag_vertex`: the handle under the pointer, the one with the
    lowest discriminant when several are near.
   */
  function GetDragVertex(r: Rect, p: Point): (v: Option<DragVertex>)
    ensures v.Some? ==> Near(HandlePos(r, v.value), p)
    ensures v.Some? ==> forall u :: Index(u) < Index(v.value) ==> !Near(HandlePos(r, u), p)
    ensures v.None? ==> forall u :: !Near(HandlePos(r, u), p)
  {
    var pts := DragPoints(r);
    match FindNear(pts, p, 0)
    case Some(i) => FromIndex(i)
    case None => None
  }

  /** `fuzzy_in_bounds`: inside the box widened by the handle radius on every side. */
  predicate FuzzyInBounds(r: Rect, p: Point) {
    var pad := Point(MinCornerDist, MinCornerDist);
    Rects.InBounds(Rect(Sub(r.c1, pad), Add(r.c2, pad)), p)
  }

  /** For a normalised box, a pointer over the box or over any of its handles is inside the fuzzy box. */
  lemma FuzzyCoversBoxAndHandles(r: Rect, p: Point)
    requires Normalized(r)
    ensures Rects.InBounds(r, p) ==> FuzzyInBounds(r, p)
    ensures GetDragVertex(r, p).Some? ==> FuzzyInBounds(r, p)
  {
    var v := GetDragVertex(r, p);
    if v.Some? {
      var h := HandlePos(r, v.value);
      var d := Sub(h, p);
      assert d.x * d.x + d.y * d.y < 100.0;
      WithinRadius(d.x, d.y);
      WithinRadius(d.y, d.x);
      assert Contains(r, h);
    }
  }

  lemma WithinRadius(u: real, w: real)
    requires u * u + w * w < 100.0
    ensures -10.0 < u < 10.0
  {
    assert w * w >= 0.0;
  }
}

=== FILE: shapes.dfy ===
/**
  Shapes as the editor stores them: a line segment with a stroke width, or a
  polygon primitive placed by a rotated rectangle. The hit test and the vertex
  list of a placed polygon go through glm matrices; they are the parameters
  collected in `Env`.
 */
module Shapes {
  import opened Points
  import opened Rects
  import Lines
  import Prims

  /** `DrawLine`: a segment from `p1` to `p2` drawn `lineWidth` pixels wide. */
  datatype DrawLine = DrawLine(p1: Point, p2: Point, lineWidth: real)

  /*
    `min_x()` and its siblings return a mutable reference to one endpoint's
    coordinate. The first endpoint is chosen only on a strict inequality, so
    on a tie every accessor designates `p2`. Writing through the reference is
    the matching `Set...` function.
   */

  predicate MinXIsP1(l: DrawLine) { l.p1.x < l.p2.x }
  predicate MaxXIsP1(l: DrawLine) { l.p1.x > l.p2.x }
  predicate MinYIsP1(l: DrawLine) { l.p1.y < l.p2.y }
  predicate MaxYIsP1(l: DrawLine) { l.p1.y > l.p2.y }

  function MinX(l: DrawLine): real { if MinXIsP1(l) then l.p1.x else l.p2.x }
  function MaxX(l: DrawLine): real { if MaxXIsP1(l) then l.p1.x else l.p2.x }
  function MinY(l: DrawLine): real { if MinYIsP1(l) then l.p1.y else l.p2.y }
  function MaxY(l: DrawLine): real { if MaxYIsP1(l) then l.p1.y else l.p2.y }

  function SetMinX(l: DrawLine, v: real): DrawLine {
    if MinXIsP1(l) then l.(p1 := l.p1.(x := v)) else l.(p2 := l.p2.(x := v))
  }

  function SetMaxX(l: DrawLine, v: real): DrawLine {
    if MaxXIsP1(l) then l.(p1 := l.p1.(x := v)) else l.(p2 := l.p2.(x := v))
  }

  function SetMinY(l: DrawLine, v: real): DrawLine {
    if MinYIsP1(l) then l.(p1 := l.p1.(y := v)) else l.(p2 := l.p2.(y := v))
  }

  function SetMaxY(l: DrawLine, v: real): DrawLine {
    if MaxYIsP1(l) then l.(p1 := l.p1.(y := v)) else l.(p2 := l.p2.(y := v))
  }

  /**
    The accessors read the smaller and the larger coordinate of the two
    endpoints, and on a tie both designate `p2`, so a write through `min_x`
    followed by one through `max_x` lands on the same field.
   */
  lemma AccessorsSelectExtremes(l: DrawLine)
    ensures MinX(l) == Min(l.p1.x, l.p2.x) && MaxX(l) == Max(l.p1.x, l.p2.x)
    ensures MinY(l) == Min(l.p1.y, l.p2.y) && MaxY(l) == Max(l.p1.y, l.p2.y)
    ensures l.p1.x == l.p2.x ==> !MinXIsP1(l) && !MaxXIsP1(l)
    ensures l.p1.y == l.p2.y ==> !MinYIsP1(l) && !MaxYIsP1(l)
    ensures l.p1.x != l.p2.x ==> MinXIsP1(l) != MaxXIsP1(l)
    ensures l.p1.y != l.p2.y ==> MinYIsP1(l) != MaxYIsP1(l)
  {
  }

  /**
    The box `DrawLine::in_bounds` tests before measuring the distance: the
    endpoints as stored, widened by half the stroke on x when the segment is
    vertical, and on y when `padY` holds.
   */
  function PaddedBox(l: DrawLine, padY: bool): Rect {
    var h := l.lineWidth / 2.0;
    var vertical := l.p1.x == l.p2.x;
    var c1 := Point(if vertical then l.p1.x - h else l.p1.x, if padY then l.p1.y - h else l.p1.y);
    var c2 := Point(if vertical then l.p2.x + h else l.p2.x, if padY then l.p2.y + h else l.p2.y);
    Rect(c1, c2)
  }

  /** Inside `box`, and no farther from the segment's supporting line than the full stroke width. */
  predicate LineHit(l: DrawLine, box: Rect, p: Point) {
    Rects.InBounds(box, p) && Lines.DistAtMost(Lines.FromPts(l.p1, l.p2), p, l.lineWidth)
  }

  /**
    `DrawLine::in_bounds` as written: its y-padding condition compares `c2.y`
    with itself, which always holds, so `p1.y` is always lowered and `p2.y`
    raised by half the stroke. That widens the box vertically when
    `p1.y <= p2.y` and narrows it when `p1.y > p2.y`.
   */
  predicate InBoundsAsWritten(l: DrawLine, p: Point) {
    var c2 := l.p2;
    LineHit(l, PaddedBox(l, c2.y == c2.y), p)
  }

  /**
    `DrawLine::in_bounds` with the y-padding condition it evidently means,
    `c1.y == c2.y`, mirroring the x axis: a horizontal segment is widened
    vertically by half its stroke, any other segment is clipped to its own
    vertical extent.
   */
  predicate InBounds(l: DrawLine, p: Point) {
    LineHit(l, PaddedBox(l, l.p1.y == l.p2.y), p)
  }

  /**
    The as-written test: x is padded by half the width only for a vertical
    segment, and y is always shifted by half the width, `p1.y` down and
    `p2.y` up, whatever their order; a point outside that box is rejected, and a
    point inside it is accepted exactly when it lies within the full stroke
    width of the line. A degenerate segment (`p1 == p2`) is never hit.
   */
  lemma InBoundsAsWrittenShape(l: DrawLine, p: Point)
    ensures var b := PaddedBox(l, true);
      && b.c1.x == (if l.p1.x == l.p2.x then l.p1.x - l.lineWidth / 2.0 else l.p1.x)
      && b.c2.x == (if l.p1.x == l.p2.x then l.p2.x + l.lineWidth / 2.0 else l.p2.x)
      && b.c1.y == l.p1.y - l.lineWidth / 2.0
      && b.c2.y == l.p2.y + l.lineWidth / 2.0
      && (!Rects.InBounds(b, p) ==> !InBoundsAsWritten(l, p))
      && (Rects.InBounds(b, p) ==>
            (InBoundsAsWritten(l, p) <==> Lines.DistAtMost(Lines.FromPts(l.p1, l.p2), p, l.lineWidth)))
    ensures l.p1 == l.p2 ==> !InBoundsAsWritten(l, p) && !InBounds(l, p)
  {
  }

  /**
    The evident intent holds of the corrected test: a segment that is not
    horizontal is never hit above or below its endpoints, and one that is
    not vertical is never hit left or right of them.
   */
  lemma InBoundsWithinExtent(l: DrawLine, p: Point)
    requires InBounds(l, p)
    ensures l.p1.y != l.p2.y ==> Min(l.p1.y, l.p2.y) <= p.y <= Max(l.p1.y, l.p2.y)
    ensures l.p1.x != l.p2.x ==> Min(l.p1.x, l.p2.x) <= p.x <= Max(l.p1.x, l.p2.x)
  {
    Rects.InBoundsIsMinMaxBox(PaddedBox(l, l.p1.y == l.p2.y), p);
  }

  /**
    The as-written test accepts a point below a diagonal segment's lower
    end: for the segment (0,0)-(10,10) of width 4, the point (1,-1) lies in
    the vertically widened box and within the stroke distance, yet outside the
    segment's vertical extent, and the corrected test rejects it.
   */
  lemma AsWrittenHitsBeyondEndpoint()
    ensures InBoundsAsWritten(DrawLine(Point(0.0, 0.0), Point(10.0, 10.0), 4.0), Point(1.0, -1.0))
    ensures !InBounds(DrawLine(Point(0.0, 0.0), Point(10.0, 10.0), 4.0), Point(1.0, -1.0))
  {
    DiagonalLine();
    DiagonalNearPoint();
    DiagonalBoxes();
  }

  /** The diagonal through (0,0) and (10,10) has coefficients (-10, 10, 0). */
  lemma DiagonalLine()
    ensures Lines.FromPts(Point(0.0, 0.0), Point(10.0, 10.0)) == Lines.Line(-10.0, 10.0, 0.0)
  {
  }

  /** (1,-1) is within distance 4 of the diagonal. */
  lemma DiagonalNearPoint()
    ensures Lines.DistAtMost(Lines.Line(-10.0, 10.0, 0.0), Point(1.0, -1.0), 4.0)
  {
  }

  /** The as-written box of the diagonal of width 4 contains (1,-1); its own extent does not. */
  lemma DiagonalBoxes()
    ensures PaddedBox(DrawLine(Point(0.0, 0.0), Point(10.0, 10.0), 4.0), true) == Rect(Point(0.0, -2.0), Point(10.0, 12.0))
    ensures Rects.InBounds(Rect(Point(0.0, -2.0), Point(10.0, 12.0)), Point(1.0, -1.0))
    ensures PaddedBox(DrawLine(Point(0.0, 0.0), Point(10.0, 10.0), 4.0), false) == Rect(Point(0.0, 0.0), Point(10.0, 10.0))
    ensures !Rects.InBounds(Rect(Point(0.0, 0.0), Point(10.0, 10.0)), Point(1.0, -1.0))
  {
  }

  /**
    The as-written test misses a segment drawn with `p1` below `p2`
    (`p1.y > p2.y`) near its own ends: for the segment (0,10)-(10,0) of
    width 4, the box shrinks to y in [2, 8], so neither the endpoint (0,10)
    nor the point (1,9) of the segment is hit, while the corrected test hits
    both.
   */
  lemma AsWrittenMissesOwnEnd()
    ensures var l := DrawLine(Point(0.0, 10.0), Point(10.0, 0.0), 4.0);
      && PaddedBox(l, true) == Rect(Point(0.0, 8.0), Point(10.0, 2.0))
      && !InBoundsAsWritten(l, l.p1) && !InBoundsAsWritten(l, Point(1.0, 9.0))
      && InBounds(l, l.p1) && InBounds(l, Point(1.0, 9.0))
  {
    var l := DrawLine(Point(0.0, 10.0), Point(10.0, 0.0), 4.0);
    InBoundsCoversSegment(l, 0.0);
    InBoundsCoversSegment(l, 0.1);
    assert Point(0.0 + 0.1 * (10.0 - 0.0), 10.0 + 0.1 * (0.0 - 10.0)) == Point(1.0, 9.0);
  }

  /** The point a fraction `t` of the way along each coordinate lies between the two ends. */
  lemma Between(a: real, b: real, t: real)
    requires 0.0 <= t <= 1.0
    ensures Min(a, b) <= a + t * (b - a) <= Max(a, b)
  {
    var d := b - a;
    var q := t * d;
    assert (1.0 - t) * d == d - q;
    if a <= b {
      assert 0.0 <= q && 0.0 <= d - q;
    } else {
      assert q <= 0.0 && d - q <= 0.0;
    }
  }

  /** Every point between two points lies on the line through them. */
  lemma OnSegmentIsOnLine(p1: Point, p2: Point, t: real)
    ensures Lines.OnLine(Lines.FromPts(p1, p2), Point(p1.x + t * (p2.x - p1.x), p1.y + t * (p2.y - p1.y)))
  {
    var dx, dy := p2.x - p1.x, p2.y - p1.y;
    var ln := Lines.FromPts(p1, p2);
    assert ln.a == -dy && ln.b == dx && ln.c == -(ln.a * p1.x + ln.b * p1.y);
    assert ln.a * (p1.x + t * dx) == ln.a * p1.x + t * (ln.a * dx);
    assert ln.b * (p1.y + t * dy) == ln.b * p1.y + t * (ln.b * dy);
    assert ln.a * dx + ln.b * dy == 0.0;
  }

  /**
    The corrected test hits every point of a proper segment with a
    nonnegative stroke, whichever way the segment is drawn.
   */
  lemma InBoundsCoversSegment(l: DrawLine, t: real)
    requires l.p1 != l.p2 && l.lineWidth >= 0.0 && 0.0 <= t <= 1.0
    ensures InBounds(l, Point(l.p1.x + t * (l.p2.x - l.p1.x), l.p1.y + t * (l.p2.y - l.p1.y)))
  {
    var p := Point(l.p1.x + t * (l.p2.x - l.p1.x), l.p1.y + t * (l.p2.y - l.p1.y));
    SegmentInCorrectedBox(l, t);
    OnSegmentIsOnLine(l.p1, l.p2, t);
    Lines.OnLineIsNear(Lines.FromPts(l.p1, l.p2), p, l.lineWidth);
  }

  /** The corrected box contains the whole segment: it pads, and never narrows, each axis. */
  lemma SegmentInCorrectedBox(l: DrawLine, t: real)
    requires l.lineWidth >= 0.0 && 0.0 <= t <= 1.0
    ensures Rects.InBounds(PaddedBox(l, l.p1.y == l.p2.y), Point(l.p1.x + t * (l.p2.x - l.p1.x), l.p1.y + t * (l.p2.y - l.p1.y)))
  {
    var px, py := l.p1.x + t * (l.p2.x - l.p1.x), l.p1.y + t * (l.p2.y - l.p1.y);
    Between(l.p1.x, l.p2.x, t);
    Between(l.p1.y, l.p2.y, t);
    Rects.InBoundsIsMinMaxBox(PaddedBox(l, l.p1.y == l.p2.y), Point(px, py));
  }

  /** A shape: `ShapeProps::Line` or `ShapeProps::Polygon`. */
  datatype Shape = Line(line: DrawLine) | Polygon(poly: Prims.DrawPolygon)

  /**
    The matrix-based geometry of placed polygons, for the current viewport:
    `toModel` maps a pixel into a polygon's model space (the inverse of its
    transform), `polyVerts` gives its transformed vertices in pixels, and
    `setCenter` is `RotateRect::set_center`.
   */
  datatype Env = Env(
    toModel: (Prims.RotateRect, Point) -> Point,
    polyVerts: (Prims.PrimType, Prims.RotateRect) -> seq<Point>,
    setCenter: (Prims.RotateRect, Point) -> Prims.RotateRect)

  /**
    `Shape::in_bounds`: a line by `DrawLine::in_bounds` as the program has
    it, a polygon where its primitive is hit in model space.
   */
  predicate Hit(env: Env, s: Shape, p: Point) {
    match s
    case Line(l) => InBoundsAsWritten(l, p)
    case Polygon(poly) => Prims.InBounds(poly.prim, env.toModel(poly.rect, p))
  }

  /**
    A canvas line is hit by the as-written test, so the diagonal segment
    (0,0)-(10,10) of width 4 is hit at (1,-1), below its lower end.
   */
  lemma LineShapeHitBeyondEndpoint(env: Env)
    ensures Hit(env, Line(DrawLine(Point(0.0, 0.0), Point(10.0, 10.0), 4.0)), Point(1.0, -1.0))
  {
    var l, q := DrawLine(Point(0.0, 0.0), Point(10.0, 10.0), 4.0), Point(1.0, -1.0);
    AsWrittenHitsBeyondEndpoint();
    LineHitIsAsWritten(env, l, q);
  }

  lemma LineHitIsAsWritten(env: Env, l: DrawLine, p: Point)
    ensures Hit(env, Line(l), p) == InBoundsAsWritten(l, p)
  {
  }

  /**
    A polygon shape is hit exactly where its primitive is hit at the pixel's
    model-space image, so one carrying the line primitive is never hit,
    wherever it is placed.
   */
  lemma PolygonHitIsPrimitiveHit(env: Env, s: Shape, p: Point)
    requires s.Polygon?
    ensures Hit(env, s, p) <==> Prims.InBounds(s.poly.prim, env.toModel(s.poly.rect, p))
    ensures s.poly.prim == Prims.Line ==> !Hit(env, s, p)
  {
  }

  /** `Shape::verts`: the pixel vertices; a line contributes its two endpoints. */
  function ShapeVerts(env: Env, s: Shape): seq<Point> {
    match s
    case Line(l) => [l.p1, l.p2]
    case Polygon(poly) => env.polyVerts(poly.prim, poly.rect)
  }

  /** `Shape::in_select_box`: some vertex of the shape lies in `r`. */
  predicate InSelectBox(env: Env, s: Shape, r: Rect) {
    var vs := ShapeVerts(env, s);
    exists i :: 0 <= i < |vs| && Rects.InBounds(r, vs[i])
  }

  /** `Shape::drag`: a line moves both endpoints, a polygon its offset. */
  function Drag(s: Shape, off: Point): (r: Shape)
    ensures r.Line? == s.Line?
    ensures r.Line? ==> r.line.p1 == Add(s.line.p1, off) && r.line.p2 == Add(s.line.p2, off)
    ensures r.Line? ==> r.line.lineWidth == s.line.lineWidth
    ensures r.Polygon? ==> r.poly == s.poly.(rect := Prims.Translate(s.poly.rect, off))
  {
    match s
    case Line(l) => Line(l.(p1 := Add(l.p1, off), p2 := Add(l.p2, off)))
    case Polygon(poly) => Polygon(poly.(rect := Prims.Translate(poly.rect, off)))
  }

  /**
    Dragging a line translates where it is hit, under the program's test and
    under the corrected one: it is hit at `p` exactly when it was hit at
    `p - off`.
   */
  lemma DragTranslatesLineHit(l: DrawLine, off: Point, p: Point)
    ensures InBoundsAsWritten(Drag(Line(l), off).line, p) == InBoundsAsWritten(l, Sub(p, off))
    ensures InBounds(Drag(Line(l), off).line, p) == InBounds(l, Sub(p, off))
  {
    var l' := Drag(Line(l), off).line;
    assert (l'.p1.y == l'.p2.y) == (l.p1.y == l.p2.y);
    DragShiftsBox(l, off, p, true);
    DragShiftsBox(l, off, p, l.p1.y == l.p2.y);
    DragShiftsDistance(l, off, p);
  }

  /** A canvas line shape's hit region moves with the line. */
  lemma DragTranslatesLineShapeHit(env: Env, s: Shape, off: Point, p: Point)
    requires s.Line?
    ensures Hit(env, Drag(s, off), p) == Hit(env, s, Sub(p, off))
  {
    DragTranslatesLineHit(s.line, off, p);
  }

  lemma DragShiftsBox(l: DrawLine, off: Point, p: Point, padY: bool)
    ensures var l' := Drag(Line(l), off).line;
      Rects.InBounds(PaddedBox(l', padY), p) == Rects.InBounds(PaddedBox(l, padY), Sub(p, off))
  {
    var l' := Drag(Line(l), off).line;
    assert PaddedBox(l', padY) == Rects.Drag(PaddedBox(l, padY), off);
    Rects.DragTranslatesInBounds(PaddedBox(l, padY), off, p);
  }

  lemma DragShiftsDistance(l: DrawLine, off: Point, p: Point)
    ensures var l' := Drag(Line(l), off).line;
      Lines.DistAtMost(Lines.FromPts(l'.p1, l'.p2), p, l.lineWidth)
      == Lines.DistAtMost(Lines.FromPts(l.p1, l.p2), Sub(p, off), l.lineWidth)
  {
    var l' := Drag(Line(l), off).line;
    var q := Sub(p, off);
    var ln, ln' := Lines.FromPts(l.p1, l.p2), Lines.FromPts(l'.p1, l'.p2);
    assert ln'.a == ln.a && ln'.b == ln.b;
    ShiftedNumerator(ln.a, ln.b, l.p1.x, l.p1.y, off.x, off.y, p.x, p.y);
    Lines.SameNumeratorSameDistance(ln', p, ln, q, l.lineWidth);
  }

  /** The value of a line equation through a shifted point, at a shifted argument, is unchanged. */
  lemma ShiftedNumerator(a: real, b: real, x1: real, y1: real, ox: real, oy: real, px: real, py: real)
    ensures a * px + b * py + -(a * (x1 + ox) + b * (y1 + oy))
         == a * (px + -ox) + b * (py + -oy) + -(a * x1 + b * y1)
  {
  }

  /** `Shape::set_rect`: a polygon takes the new placement; a line is unchanged. */
  function SetRect(s: Shape, rr: Prims.RotateRect): (r: Shape)
    ensures s.Line? ==> r == s
    ensures s.Polygon? ==> r.Polygon? && r.poly.rect == rr && r.poly.prim == s.poly.prim && r.poly.fill == s.poly.fill
  {
    match s
    case Line(_) => s
    case Polygon(poly) => Polygon(poly.(rect := rr))
  }

  /**
    `Shape::drag_side(r)`: a polygon takes `r.c1` as offset and `r`'s width
    and height as size; a line writes `r`'s bounds through its four
    accessors in turn, each choosing its endpoint after the previous write.
   */
  function DragSide(s: Shape, r: Rect): Shape {
    match s
    case Polygon(poly) =>
      Polygon(poly.(rect := poly.rect.(offset := r.c1, size := Point(Width(r), Height(r)))))
    case Line(l) =>
      var l1 := SetMinX(l, r.c1.x);
      var l2 := SetMaxX(l1, r.c2.x);
      var l3 := SetMinY(l2, r.c1.y);
      Line(SetMaxY(l3, r.c2.y))
  }

  /** After `drag_side` a polygon's placement spans a normalised `r` exactly, with its rotation, primitive and fill kept. */
  lemma DragSidePolygonSpansRect(s: Shape, r: Rect)
    requires s.Polygon? && Normalized(r)
    ensures var t := DragSide(s, r);
      && t.Polygon?
      && t.poly.rect.offset == r.c1
      && Add(t.poly.rect.offset, t.poly.rect.size) == r.c2
      && t.poly.rect.rot == s.poly.rect.rot
      && t.poly.prim == s.poly.prim && t.poly.fill == s.poly.fill
  {
  }

  /**
    After `drag_side` with a normalised `r`, a line's endpoints span `r` on
    each axis, provided the new minimum does not exceed the old maximum (the
    accessor choosing the field for the second write sees the first write).
   */
  lemma DragSideLineSpansRect(l: DrawLine, r: Rect)
    requires Normalized(r)
    requires r.c1.x <= Max(l.p1.x, l.p2.x) && r.c1.y <= Max(l.p1.y, l.p2.y)
    ensures var t := DragSide(Line(l), r).line;
      && Min(t.p1.x, t.p2.x) == r.c1.x && Max(t.p1.x, t.p2.x) == r.c2.x
      && Min(t.p1.y, t.p2.y) == r.c1.y && Max(t.p1.y, t.p2.y) == r.c2.y
      && t.lineWidth == l.lineWidth
  {
  }
}
